=== FILE: README.md ===
# Video near-duplicate detector — a Dafny model

The detector turns a video into one content signature. It samples every
`frame_step`-th frame up to `num_frames` frames, embeds each sampled frame
with an image network, and averages the embeddings. A new video is a
duplicate when some stored signature lies within a squared Euclidean
distance threshold of it. Signatures live in two places:

- The command-line tool keeps them in a vector store (`DatabaseManager`): one
  `.npy` file per video id plus a pickled, insertion-ordered id → path index.
  The tool rebuilds that store from a directory, searches it for the nearest
  signature, and deletes ids from it.
- The web service keeps two append-only CSV tables: `links.csv`
  (created, uuid, link) and `metrics.csv` (uuid, comma-joined vector). An
  upload first checks whether the link is already known. It then downloads
  the video, extracts its signature and compares it with every stored
  vector. Only a video judged unique is written, as one row in each table
  under the same id.

The model is functional throughout. Disk contents are values (`Disk`,
`Csvs`), every operation returns the new state, and the external pieces are
parameters:

- the decoder is a sequence of read results;
- the network is `embed: Frame -> Vec`, which gives every frame a vector of
  one length;
- the exact L2 index is any `nearest` function that returns a position of
  minimal squared distance;
- number formatting and parsing are `show`/`parse`;
- the clock is a `now` string.

Modules, one per file:

| file | module | models |
|---|---|---|
| options.dfy | `Options` | Python's `None` as `Option` |
| text.dfy | `Text` | `str.strip`, `",".join`, `str.split(",")`, `os.path.splitext`, `os.path.join` |
| vectors.dfy | `Vectors` | mean of embeddings, squared L2 distance, exact nearest neighbour |
| ordered_dict.dfy | `OrderedDict` | the insertion-ordered `dict` used as the index |
| feature_extractor.dfy | `FeatureExtractor` | `FeatureExtractor.extract` |
| database_manager.dfy | `DatabaseManager` | `DatabaseManager` (load, save, add, list, delete) |
| database_builder.dfy | `DatabaseBuilder` | `build_database` |
| cli.dfy | `Cli` | `search_duplicate` and `main` |
| api.dfy | `Api` | the CSV tables and `upload_video` |

Behaviour of the code worth knowing before reading the contracts:

- The search has no tie-break of its own. When several stored vectors are
  equally near, the reported id is whatever position the flat index
  returns. The model leaves that choice open (`Vectors.ExactSearch`), and
  `Cli.SearchIgnoresTieBreak` shows that only the reported id can depend on
  it.
- Adding an id that is already present overwrites it. The index entry is
  updated in place and the feature file is rewritten
  (`DatabaseManager.AddVideo`, `OrderedDict.Put`).
- An add writes the feature file first and saves the index second. The
  model records both steps in one result.

## Model

| member | source | states |
|---|---|---|
| Text.Strip | api.py:95 | the stripped link is the piece of the input between its leading and trailing whitespace (Python's `isspace` set), has no whitespace at either end, and everything outside it is whitespace |
| Text.StripFixedPoint | api.py:95 | `strip` returns its input exactly when the input has no whitespace at either end, and stripping twice equals stripping once |
| Text.Split | api.py:62 | `split(",")` always yields at least one piece and no piece contains the separator |
| Text.SplitJoin | api.py:82-88 | splitting on `,` the `,`-join of one or more comma-free tokens gives back the same tokens, in order and with the same count |
| Text.JoinSplit | api.py:62 | joining the pieces of a split with the separator gives back the original string |
| Text.SplitOfEmptyJoin | api.py:62 | the join of no tokens splits into one empty token, the one case the round trip excludes |
| Text.SplitExt | database_builder.py:24 | `splitext` cuts the name into root and extension that concatenate back to it; the extension is empty or one dot followed by a dot-free, slash-free tail; it is split off only when the last component has a non-dot character before that dot, and it is empty only when every dot of the last component has nothing but dots before it |
| Text.Stem | database_builder.py:24 | a video id taken from a file name is a prefix of that name |
| Text.StemOfExtension | database_builder.py:24 | a name ending in a dot and a dot-free, slash-free extension, with a non-dot character before that dot in its last component, has exactly the part before that dot as its id (`clip.mp4` gives `clip`) |
| Text.PathJoin | database_manager.py:27 | `os.path.join` returns an absolute second component unchanged, and otherwise puts the directory (with one `/` added if missing) in front |
| Text.PathJoinInjective | database_manager.py:27 | joining one directory with different relative names gives different paths |
| Vectors.SqDist | main.py:26-30 | the squared L2 distance an exact flat index reports is never negative |
| Vectors.SqDistSelf | main.py:26-30 | a vector is at distance zero from itself |
| Vectors.Mean | feature_extractor.py:38-40 | the signature has the embedding length, and each component times the number of embedded frames is that component's sum over the frames |
| Vectors.MeanOfCopies | feature_extractor.py:39 | the mean of identical embeddings, in particular of a single one, is that embedding |
| Vectors.MinSqDist | main.py:29-30 | the reported distance is no larger than the distance to any stored vector and is attained by one of them |
| Vectors.NearestDistance | main.py:29-31 | every position a k=1 exact search may return reports the same distance, the minimum |
| Vectors.ArgMinNearest | main.py:29-31 | the first-minimum position `ArgMin` is a nearest position and no earlier position is as near |
| Vectors.ArgMinIsExact | main.py:29-31 | `ArgMin` is a valid k=1 exact search, so the search parameter that `Cli.SearchDuplicate` and `Cli.Execute` require can be met |
| Vectors.ExhaustiveSearch | main.py:26-31 | the linear scan of a flat L2 index returns a nearest position and the minimal distance, and it is the first such position, the one `ArgMin` gives |
| OrderedDict.Pos | database_manager.py:48-49 | a key occupies at most one position, which is found exactly when the key is present |
| OrderedDict.Get | database_manager.py:48-49 | lookup succeeds exactly for present keys and returns the value stored with the key |
| OrderedDict.Put | database_manager.py:29 | after `index[id] = path` the id maps to path and every other id keeps its value; a present id keeps its position, a new id is appended at the end |
| OrderedDict.Remove | database_manager.py:52 | `del index[id]` removes exactly that key, keeps every other key's value, and closes the gap without reordering |
| FeatureExtractor.ArangeUp | feature_extractor.py:22 | with a positive step, `arange(0, n, step)` lists `k * step` for every `k` that stays below `n` and stops only when the next multiple would reach `n` |
| FeatureExtractor.ArangeDown | feature_extractor.py:22 | with a negative step and a non-negative stop, `arange` is empty |
| FeatureExtractor.Head | feature_extractor.py:23 | `[:num_frames]` is a prefix of the list: of that length when it fits, the whole list when longer, and `-num_frames` items shorter when negative |
| FeatureExtractor.SelectIndicesSpec | feature_extractor.py:21-23 | at most `num_frames` sampled indices; index `k` is `k * step` and lies below the frame count; they strictly increase; the list is short of the cap only when the next multiple is out of range; frame 0 is sampled when the video has a frame; a video no longer than one step gives at most one index |
| FeatureExtractor.SelectIndicesNegativeStep | feature_extractor.py:22-23 | a negative step samples nothing from a video with a non-negative frame count |
| FeatureExtractor.Readable | feature_extractor.py:26-29 | counts exactly the successful reads before the first failed one |
| FeatureExtractor.ScanFrom | feature_extractor.py:26-35 | the loop makes one read per frame up to the frame count, or one read past the last good frame; every embedded frame has a sampled index below the read limit and carries that frame's embedding |
| FeatureExtractor.ScanComplete | feature_extractor.py:30-35 | every sampled index below the read limit is embedded |
| FeatureExtractor.ScanOrdered | feature_extractor.py:26-35 | frames are embedded in stream order, each at most once |
| FeatureExtractor.Extract | feature_extractor.py:19-42 | the result is `None` exactly when no sampled index is below the read limit; otherwise it has the embedding length and is the mean of the embedded frames |
| FeatureExtractor.ExtractNothingRead | feature_extractor.py:38-42 | a video reporting no frame, or whose first read fails, yields `None` |
| FeatureExtractor.ExtractShortVideo | feature_extractor.py:22-40 | a readable video no longer than one step yields exactly its first frame's embedding |
| DatabaseManager.FeaturePathInjective | database_manager.py:27 | two relative ids never share a feature file |
| DatabaseManager.AbsoluteIdCollides | database_manager.py:27 | an absolute id escapes the store: under the default directory `database` the id `/tmp/a` is written to `/tmp/a.npy`, and when the store is at `/database` the id `/database/a` is written to the feature file of id `a` |
| DatabaseManager.Open | database_manager.py:15-20 | opening loads the pickled index when it exists and starts empty otherwise |
| DatabaseManager.SaveIndex | database_manager.py:22-24 | saving makes the pickled index equal the in-memory one and touches nothing else |
| DatabaseManager.SaveThenOpen | database_manager.py:13-24 | reopening the directory after a save gives back the saved index |
| DatabaseManager.AddVideo | database_manager.py:26-30 | the id maps to its feature path and that file holds the features; every other id and file is unchanged; re-adding keeps the index length; the index is saved |
| DatabaseManager.ListSound | database_manager.py:35-39 | each listed id is an index entry whose file exists, listed with that file's vector |
| DatabaseManager.ListComplete | database_manager.py:35-39 | every index entry whose file exists is listed |
| DatabaseManager.ListOrdered | database_manager.py:35-39 | ids are listed in index insertion order |
| DatabaseManager.GetAllFeatures | database_manager.py:32-45 | vectors and ids are aligned position by position; the ids are exactly the indexed ids whose file exists, in insertion order; entries whose file is missing are skipped |
| DatabaseManager.EmptyListing | database_manager.py:42-45 | the listing is empty exactly when no index entry has its file |
| DatabaseManager.DeleteVideo | database_manager.py:47-56 | an absent id changes nothing, not even the index file; a present id loses its entry and its file, every other entry and file is kept, and the index is saved |
| DatabaseManager.AddThenList | database_manager.py:26-39 | after an add, the listing contains the id together with the features just written |
| DatabaseManager.DeleteThenList | database_manager.py:32-53 | after deleting a present id it is no longer listed, while every other listed id with a different feature file stays listed |
| DatabaseBuilder.VideoFiles | database_builder.py:10 | the files processed are exactly the directory entries that are regular files |
| DatabaseBuilder.VideoFilesAppend | database_builder.py:10 | the filter keeps listing order: the files of two concatenated listings are the files of the first followed by those of the second |
| DatabaseBuilder.VideoFilesAllFiles | database_builder.py:10 | a listing of regular files only is processed whole and in order |
| DatabaseBuilder.AddAll | database_builder.py:19-27 | the loop writes only feature files, so every file present before is still present, and a saved index stays saved |
| DatabaseBuilder.LastFeaturesSome | database_builder.py:19-25 | a stem has a winning file exactly when some file with that stem was extracted successfully |
| DatabaseBuilder.AddAllIndex | database_builder.py:19-25 | after the loop a stem with a winner maps to its feature path, and any other key keeps its earlier entry |
| DatabaseBuilder.AddAllFiles | database_builder.py:19-25 | after the loop the feature file of a stem with a winner holds the last successful file's features, and other stems' files are as before |
| DatabaseBuilder.ClearIndex | database_builder.py:16-17 | clearing empties and saves the index but deletes no feature file |
| DatabaseBuilder.BuildDatabase | database_builder.py:7-28 | a directory without regular files leaves the store exactly as it was; otherwise the rebuilt index is saved and every old feature file is kept |
| DatabaseBuilder.RebuildKeys | database_builder.py:16-25 | after a rebuild the index keys are exactly the stems of files whose extraction succeeded, each mapped to its feature path; earlier entries are gone |
| DatabaseBuilder.RebuildLaterWins | database_builder.py:19-25 | when two files share a stem, the later one in listing order supplies the stored features |
| Cli.SearchDuplicate | main.py:11-37 | the pickled index is opened first; an extraction failure is reported before any feature file is listed, and an empty listing before any comparison; a stored vector whose length differs from the query's is reported as a mismatch; otherwise there is a verdict, which carries the minimum squared distance and the id at a nearest position and is a duplicate exactly when that distance is below the threshold |
| Cli.SearchIgnoresTieBreak | main.py:29-34 | two exact searches that break ties differently give the same distance and the same duplicate verdict |
| Cli.SearchFindsStoredCopy | main.py:19-35 | a video whose own signature is stored under an indexed id is a duplicate at distance zero under any positive threshold, provided every listed vector has the signature's length (otherwise the code raises at main.py:27 and the model reports a mismatch) |
| Cli.ParseArgs | main.py:41-45 | an option left off the command line takes its default: videos directory `videos`, threshold 0.5, no search, no delete |
| Cli.NoOptionsPrintsHelp | main.py:40-57 | with no option given, `main` prints help and leaves the store's disk unchanged |
| Cli.DefaultsApply | main.py:41-52 | `--search path` alone searches with threshold 0.5, and `--build-db` alone rebuilds from `videos` |
| Cli.Dispatch | main.py:49-57 | a rebuild wins over a search, a search over a delete, and help is printed when none applies; empty strings count as absent |
| Cli.Execute | main.py:47-57 | a search and help leave the store's disk unchanged, and a search reports the outcome of `search_duplicate` on the given path and threshold; a delete and a rebuild have the effect of the operation they dispatch to; a rebuild from a directory that cannot be listed writes nothing |
| Api.FindLink | api.py:92-97 | the lookup returns the first row whose stored link equals the stripped query, and `None` exactly when no row matches |
| Api.FindLinkAppend | api.py:92-97 | appending rows never changes the answer for a link that is already found |
| Api.ParseAll | api.py:62 | the vector is read exactly when every token parses, has one component per token, and component `k` is token `k` parsed |
| Api.LoadMetrics | api.py:56-67 | the table loads exactly when every row decodes, one vector per row and in row order |
| Api.VectorRoundTrip | api.py:82-88 | a non-empty vector, each of whose components is written as a comma-free token that reads back as that component, is decoded to the same vector |
| Api.EmptyVectorUnreadable | api.py:62 | an empty vector is written as the empty field, and a reader that rejects the empty string cannot load it back |
| Api.SaveLink | api.py:71-78 | saving a link appends exactly one links row (time, id, link as given) after the unchanged earlier rows, and leaves the metrics table untouched |
| Api.SaveMetrics | api.py:82-88 | saving a vector appends exactly one metrics row (id, comma-joined encoding) after the unchanged earlier rows, and leaves the links table untouched |
| Api.SaveLinkThenFind | api.py:71-78 | a link with no surrounding whitespace that was not yet stored is found again, as the row just written, once it is saved |
| Api.SaveMetricsThenLoad | api.py:82-88 | after saving a non-empty vector whose components read back exactly, the metrics table loads as before with that vector appended |
| Api.StoreDistance | api.py:153-158 | a distance exists exactly when the table loads, is non-empty and matches the query's length, and it is then the minimum squared distance |
| Api.Classify | api.py:149-160 | an empty table means unique; otherwise the upload is a duplicate exactly when some stored vector is at squared distance below 0.5, reporting the minimum; an unreadable or mismatched table is an error |
| Api.UploadVideo | api.py:113-179 | a known link answers with its first row and writes nothing; once a new link's video is downloaded and its features extracted, the outcome is the comparison of those features with the metrics table; a failed download or extraction writes nothing; a duplicate is reported below 0.5 and writes nothing; a unique video appends one links row holding the url as submitted and one metrics row holding its features, under the same downloaded id |
| Api.FirstUploadIsUnique | api.py:150-151 | the first successful upload into empty tables is unique |
| Api.ThresholdIsExclusive | api.py:159-160 | a minimum distance of exactly 0.5 is not a duplicate |
| Api.KnownLinkIgnoresVideo | api.py:123-131 | for a known link the answer and the tables do not depend on the download, the step, the extractor (embedding and its length), the number format or the clock |
| Api.ResubmitIsAlreadyStored | api.py:123-131 | submitting a url with no surrounding whitespace again after it was stored answers with the row just written |
| Api.PaddedUrlNeverShortCircuits | api.py:164 | a url with surrounding whitespace is stored as submitted but looked up stripped, so its own row never answers a later submission of the same text |
| Api.UniqueUploadLoadsBack | api.py:163-165 | after a unique upload whose extracted components read back exactly, the metrics table loads as before with the new features appended |
| Api.SameContentIsDuplicate | api.py:153-160 | a video whose features are already stored, submitted under a link not yet stored and compared against a readable metrics table whose vectors all have the features' length, is a duplicate at distance zero |

## Left out

- The image network, its preprocessing and the device choice. An arbitrary `embed` stands in for them; it gives every frame a vector of one length.
- Video decoding by cv2. A capture is a reported frame count plus the sequence of read results; how the count is rounded by the container is not modelled.
- Floating point. Vectors are exact reals. The float32 conversion before the index, and `np.mean`'s rounding, are not modelled.
- The flat L2 index's internals. Only its k=1 contract is modelled (`Vectors.ExactSearch`), with `Vectors.ExhaustiveSearch` as the linear scan it performs.
- Vectors.SqDist: only non-negativity and zero self-distance are stated. That a zero distance implies equal vectors is not stated, because it needs non-linear real arithmetic.
- FeatureExtractor.Extract: requires a non-zero step. `np.arange` raises on step 0. The one caller that passes a user-supplied step, `Api.UploadVideo`, turns that case into `ExtractionFailed`.
- Cli.SearchDuplicate: the id is any nearest one. Which id the index reports on a tie is not modelled, as explained above.
- Cli.SearchDuplicate: a stored vector whose length differs from the query's, or stored vectors of differing lengths, make the code raise: numpy cannot build a ragged array, or the index rejects the rows (main.py:19-27, database_manager.py:42-43). The model returns `DimensionMismatch` instead. As in the code, the whole search fails; the bad record is not skipped.
- Api.UploadVideo: the same mismatch in the metrics table makes the code raise at api.py:153-156, a server error that writes nothing. The model returns `SearchFailed`, also writing nothing, and the whole upload fails rather than skipping the bad row.
- Cli.Execute: `os.listdir` raising on a missing videos directory (database_builder.py:10) is modelled as `listDir` giving `None`, and the rebuild then writes nothing. The traceback itself is not modelled; the pickled index is opened, but not written, before the listing.
- File formats of pickle, `np.save`/`np.load` and the CSV library, including quoting and header rows. `create_csv_if_not_exists` only writes headers, so it has no counterpart. Storage is maps and sequences of rows.
- Python's `str` of a float and `float` of a token. They are the parameters `show` and `parse`. The round-trip lemmas require, of the vector being written only, that each component's text has no comma and parses back to that component.
- `os.makedirs` of the database directory, path normalisation, and the temporary download file, which is never removed on success.
- The yt_dlp download. It is a parameter giving an id and a capture, or nothing on failure.
- FastAPI routing, templates, the HTTP status codes of failures, `webbrowser`, uvicorn, tqdm and console output. Of argparse only the option defaults are modelled (`Cli.ParseArgs`), not the parsing of the command line itself.
- Api.UploadVideo: a missing url always gives `MissingUrl`. In the code it fails in one of two ways, depending on whether the links table has rows: an attribute error or a failed download. Both end in a server error that writes nothing.
- The timestamp format of `created`. The clock is a string parameter `now`.
- Concurrency between requests, and crashes between the two appends of an upload.

=== FILE: api.dfy ===
/**
 * The web service (`api.py`): two append-only CSV tables, `links.csv`
 * (created, uuid, link) and `metrics.csv` (uuid, comma-joined vector), and
 * the `/upload/` transaction that short-circuits on a known link,
 * downloads, extracts, compares against every stored vector with a fixed
 * threshold of 0.5 and, only for a unique video, appends one row to each
 * table under the same id.
 *
 * Rows are modelled after the CSV layer has split them into fields; how a
 * real number is written (`str`) and read back (`float`) are parameters.
 */
module Api {
  import opened Options
  import opened Text
  import opened Vectors
  import opened FeatureExtractor

  const UploadThreshold: real := 0.5

  /** A row of `links.csv`. */
  datatype LinkRow = LinkRow(created: string, uuid: string, link: string)

  /** A row of `metrics.csv`, the vector still in its text form. */
  datatype MetricRow = MetricRow(uuid: string, vector: string)

  /** Both tables, header rows left implicit. */
  datatype Csvs = Csvs(links: seq<LinkRow>, metrics: seq<MetricRow>)

  /** `find_link_in_csv(link)`: the first stored row whose link equals the
      query with surrounding whitespace removed; stored links are compared
      as they are. */
  function FindLink(links: seq<LinkRow>, query: string): (r: Option<LinkRow>)
    ensures r.None? <==> forall i :: 0 <= i < |links| ==> links[i].link != Strip(query)
    ensures r.Some? ==> exists i :: 0 <= i < |links| && links[i] == r.value && r.value.link == Strip(query)
                                    && forall j :: 0 <= j < i ==> links[j].link != Strip(query)
  {
    if |links| == 0 then None
    else if links[0].link == Strip(query) then Some(links[0])
    else
      var r := FindLink(links[1..], query);
      assert forall i :: 1 <= i < |links| ==> links[1..][i - 1] == links[i];
      if r.Some? then
        var i :| 0 <= i < |links[1..]| && links[1..][i] == r.value && r.value.link == Strip(query)
                  && forall j :: 0 <= j < i ==> links[1..][j].link != Strip(query);
        assert links[i + 1] == r.value;
        r
      else r
  }

  /** Rows already stored keep their answer when more rows are appended. */
  lemma {:induction false} FindLinkAppend(links: seq<LinkRow>, more: seq<LinkRow>, query: string)
    requires FindLink(links, query).Some?
    ensures FindLink(links + more, query) == FindLink(links, query)
    decreases |links|
  {
    if links[0].link != Strip(query) {
      assert (links + more)[1..] == links[1..] + more;
      FindLinkAppend(links[1..], more, query);
    }
  }

  /** `",".join(map(str, vector))`. */
  function EncodeVector(v: Vec, show: real -> string): string
  {
    Join(seq(|v|, i requires 0 <= i < |v| => show(v[i])), ',')
  }

  /** `float` applied to each token, failing when any token fails. */
  function ParseAll(tokens: seq<string>, parse: string -> Option<real>): (r: Option<Vec>)
    ensures r.Some? <==> forall k :: 0 <= k < |tokens| ==> parse(tokens[k]).Some?
    ensures r.Some? ==> |r.value| == |tokens|
                        && forall k :: 0 <= k < |tokens| ==> r.value[k] == parse(tokens[k]).value
  {
    if |tokens| == 0 then Some([])
    else
      var rest := ParseAll(tokens[1..], parse);
      assert forall k :: 1 <= k < |tokens| ==> tokens[1..][k - 1] == tokens[k];
      match parse(tokens[0])
      case None => None
      case Some(x) => if rest.None? then None else Some([x] + rest.value)
  }

  /** The vector of one `metrics.csv` row: its field split on commas, each
      token read as a number. */
  function DecodeVector(s: string, parse: string -> Option<real>): Option<Vec>
  {
    ParseAll(Split(s, ','), parse)
  }

  /** Each component of `v` is written without a comma and reads back as
      itself. */
  predicate ReadsBack(v: Vec, show: real -> string, parse: string -> Option<real>)
  {
    forall k :: 0 <= k < |v| ==> ',' !in show(v[k]) && parse(show(v[k])) == Some(v[k])
  }

  /** The stored text of a non-empty vector decodes to the same vector. */
  lemma VectorRoundTrip(v: Vec, show: real -> string, parse: string -> Option<real>)
    requires |v| > 0
    requires ReadsBack(v, show, parse)
    ensures DecodeVector(EncodeVector(v, show), parse) == Some(v)
  {
    var tokens := seq(|v|, i requires 0 <= i < |v| => show(v[i]));
    forall k | 0 <= k < |tokens|
      ensures ',' !in tokens[k] && parse(tokens[k]) == Some(v[k])
    {
      assert tokens[k] == show(v[k]);
    }
    SplitJoin(tokens, ',');
    var r := ParseAll(tokens, parse);
    assert r.value == v;
  }

  /** The empty vector is written as the empty field, which splits into one
      empty token; a reader that rejects the empty string cannot load it. */
  lemma EmptyVectorUnreadable(show: real -> string, parse: string -> Option<real>)
    requires parse("") == None
    ensures DecodeVector(EncodeVector([], show), parse) == None
  {
    SplitOfEmptyJoin(',');
  }

  /** `load_metrics`: the stored vectors in row order, or `None` when some
      row does not parse (the request then fails). */
  function LoadMetrics(rows: seq<MetricRow>, parse: string -> Option<real>): (r: Option<seq<Vec>>)
    ensures r.Some? <==> forall k :: 0 <= k < |rows| ==> DecodeVector(rows[k].vector, parse).Some?
    ensures r.Some? ==> |r.value| == |rows|
                        && forall k :: 0 <= k < |rows| ==> r.value[k] == DecodeVector(rows[k].vector, parse).value
  {
    if |rows| == 0 then Some([])
    else
      var rest := LoadMetrics(rows[1..], parse);
      assert forall k :: 1 <= k < |rows| ==> rows[1..][k - 1] == rows[k];
      match DecodeVector(rows[0].vector, parse)
      case None => None
      case Some(v) => if rest.None? then None else Some([v] + rest.value)
  }

  /** `save_link_to_csv`: append one links row stamped `now`. Earlier rows
      and the metrics table are untouched. */
  function SaveLink(c: Csvs, id: string, link: string, now: string): (r: Csvs)
    ensures r.metrics == c.metrics
    ensures |r.links| == |c.links| + 1 && r.links[..|c.links|] == c.links
    ensures r.links[|c.links|] == LinkRow(now, id, link)
  {
    c.(links := c.links + [LinkRow(now, id, link)])
  }

  /** `save_metrics_to_csv`: append one metrics row with the encoded vector.
      Earlier rows and the links table are untouched. */
  function SaveMetrics(c: Csvs, id: string, v: Vec, show: real -> string): (r: Csvs)
    ensures r.links == c.links
    ensures |r.metrics| == |c.metrics| + 1 && r.metrics[..|c.metrics|] == c.metrics
    ensures r.metrics[|c.metrics|].uuid == id
    ensures r.metrics[|c.metrics|].vector == EncodeVector(v, show)
  {
    c.(metrics := c.metrics + [MetricRow(id, EncodeVector(v, show))])
  }

  /** A saved link is found again by its own stripped form, unless an
      earlier row already answers for it. */
  lemma SaveLinkThenFind(c: Csvs, id: string, link: string, now: string)
    requires FindLink(c.links, link).None?
    requires IsStripped(link)
    ensures FindLink(SaveLink(c, id, link, now).links, link) == Some(LinkRow(now, id, link))
  {
    StripFixedPoint(link);
    var links := SaveLink(c, id, link, now).links;
    assert links[|c.links|] == LinkRow(now, id, link);
  }

  /** Saved metrics load back after the ones already stored. */
  lemma SaveMetricsThenLoad(c: Csvs, id: string, v: Vec, show: real -> string, parse: string -> Option<real>)
    requires |v| > 0 && ReadsBack(v, show, parse)
    requires LoadMetrics(c.metrics, parse).Some?
    ensures LoadMetrics(SaveMetrics(c, id, v, show).metrics, parse) == Some(LoadMetrics(c.metrics, parse).value + [v])
  {
    VectorRoundTrip(v, show, parse);
    var rows := SaveMetrics(c, id, v, show).metrics;
    assert forall k :: 0 <= k < |c.metrics| ==> rows[k] == c.metrics[k];
    assert rows[|c.metrics|].vector == EncodeVector(v, show);
    var before := LoadMetrics(c.metrics, parse).value;
    var r := LoadMetrics(rows, parse);
    assert r.value == before + [v];
  }

  /** What `download_video` yields: the extractor id and the file. */
  datatype Download = Download(videoId: string, video: Capture)

  /** How an upload ends. Failures after the short-circuit are an HTTP
      error in the service. */
  datatype UploadOutcome =
    | MissingUrl
    | AlreadyStored(row: LinkRow)
    | DownloadFailed
    | ExtractionFailed
    | StoreUnreadable
    | SearchFailed
    | Unique(videoId: string)
    | Duplicate(distance: real)

  /** The outcome and both tables afterwards. */
  datatype Response = Response(outcome: UploadOutcome, after: Csvs)

  /** The distance an upload compares against the threshold: the smallest
      squared distance to a stored vector, when the store is readable,
      non-empty and of the query's length. */
  function StoreDistance(c: Csvs, q: Vec, parse: string -> Option<real>): (r: Option<real>)
    ensures r.Some? <==> var db := LoadMetrics(c.metrics, parse);
      db.Some? && |db.value| > 0 && AllDim(db.value, |q|)
    ensures r.Some? ==> r.value == MinSqDist(LoadMetrics(c.metrics, parse).value, q)
  {
    match LoadMetrics(c.metrics, parse)
    case None => None
    case Some(db) => if |db| > 0 && AllDim(db, |q|) then Some(MinSqDist(db, q)) else None
  }

  /** `upload_video(video_url, frame_step)`. A link already stored answers
      with its first row and nothing else happens; otherwise the video is
      downloaded and its features extracted with the given step; a failure
      there writes nothing. An empty metrics table makes the video unique;
      otherwise it is a duplicate exactly when its smallest squared distance
      to a stored vector is below 0.5. Only a unique video is stored: one
      links row holding the url as submitted and one metrics row, both under
      the downloaded video's id. */
  function UploadVideo(c: Csvs, url: Option<string>, frameStep: int, download: Option<Download>,
                       embed: Frame -> Vec, dim: nat, show: real -> string, parse: string -> Option<real>,
                       now: string): (r: Response)
    requires EmbedsTo(embed, dim)
    ensures r.outcome.MissingUrl? <==> url.None?
    ensures r.outcome.AlreadyStored? <==> url.Some? && FindLink(c.links, url.value).Some?
    ensures r.outcome.AlreadyStored? ==> r.outcome.row == FindLink(c.links, url.value).value
    ensures r.outcome.DownloadFailed? <==>
      url.Some? && FindLink(c.links, url.value).None? && download.None?
    ensures r.outcome.ExtractionFailed? <==>
      && url.Some? && FindLink(c.links, url.value).None? && download.Some?
      && (frameStep == 0 || Extract(download.value.video, frameStep, DefaultNumFrames, embed, dim).None?)
    ensures r.outcome.Duplicate? ==>
      && download.Some? && frameStep != 0
      && var q := Extract(download.value.video, frameStep, DefaultNumFrames, embed, dim).value;
         StoreDistance(c, q, parse) == Some(r.outcome.distance) && r.outcome.distance < UploadThreshold
    ensures r.outcome.Unique? ==>
      && url.Some? && download.Some? && frameStep != 0
      && var q := Extract(download.value.video, frameStep, DefaultNumFrames, embed, dim).value;
      && r.outcome.videoId == download.value.videoId
      && (c.metrics == [] || (StoreDistance(c, q, parse).Some? && StoreDistance(c, q, parse).value >= UploadThreshold))
      && r.after.links == c.links + [LinkRow(now, r.outcome.videoId, url.value)]
      && r.after.metrics == c.metrics + [MetricRow(r.outcome.videoId, EncodeVector(q, show))]
    ensures !r.outcome.Unique? ==> r.after == c
    ensures
      && url.Some? && FindLink(c.links, url.value).None? && download.Some? && frameStep != 0
      && Extract(download.value.video, frameStep, DefaultNumFrames, embed, dim).Some?
      ==> r.outcome == Classify(c, Extract(download.value.video, frameStep, DefaultNumFrames, embed, dim).value,
                                parse, download.value.videoId)
  {
    if url.None? then Response(MissingUrl, c)
    else
      var link := url.value;
      match FindLink(c.links, link)
      case Some(row) => Response(AlreadyStored(row), c)
      case None =>
        if download.None? then Response(DownloadFailed, c)
        else if frameStep == 0 then Response(ExtractionFailed, c)
        else
          var d := download.value;
          match Extract(d.video, frameStep, DefaultNumFrames, embed, dim)
          case None => Response(ExtractionFailed, c)
          case Some(q) =>
            var outcome := Classify(c, q, parse, d.videoId);
            Response(outcome, if outcome.Unique? then SaveBoth(c, d.videoId, link, q, show, now) else c)
  }

  /** The writes of a unique upload: the links row, then the metrics row,
      under one id. */
  function SaveBoth(c: Csvs, id: string, link: string, q: Vec, show: real -> string, now: string): Csvs
  {
    SaveMetrics(SaveLink(c, id, link, now), id, q, show)
  }

  /** The comparison step of an upload with features `q`: unique on an
      empty metrics table; otherwise the table must load and match the
      features' length, and the video is a duplicate exactly when some
      stored vector lies at squared distance below 0.5. */
  function Classify(c: Csvs, q: Vec, parse: string -> Option<real>, id: string): (r: UploadOutcome)
    ensures r.Unique? || r.Duplicate? || r.StoreUnreadable? || r.SearchFailed?
    ensures r.StoreUnreadable? <==> c.metrics != [] && LoadMetrics(c.metrics, parse).None?
    ensures r.SearchFailed? <==>
      c.metrics != [] && LoadMetrics(c.metrics, parse).Some? && StoreDistance(c, q, parse).None?
    ensures r.Duplicate? <==>
      c.metrics != [] && StoreDistance(c, q, parse).Some? && StoreDistance(c, q, parse).value < UploadThreshold
    ensures r.Duplicate? ==> r.distance == StoreDistance(c, q, parse).value
    ensures r.Duplicate? <==>
      && StoreDistance(c, q, parse).Some?
      && exists k :: 0 <= k < |c.metrics| && SqDist(q, LoadMetrics(c.metrics, parse).value[k]) < UploadThreshold
    ensures r.Unique? ==> r.videoId == id
  {
    if c.metrics == [] then Unique(id)
    else
      match LoadMetrics(c.metrics, parse)
      case None => StoreUnreadable
      case Some(db) =>
        if !AllDim(db, |q|) then SearchFailed
        else
          var distance := MinSqDist(db, q);
          if distance < UploadThreshold then Duplicate(distance) else Unique(id)
  }

  /** The first upload into empty tables is unique whenever the video
      downloads and yields features. */
  lemma FirstUploadIsUnique(url: string, frameStep: int, d: Download, embed: Frame -> Vec, dim: nat,
                            show: real -> string, parse: string -> Option<real>, now: string)
    requires EmbedsTo(embed, dim)
    requires frameStep != 0 && Extract(d.video, frameStep, DefaultNumFrames, embed, dim).Some?
    ensures UploadVideo(Csvs([], []), Some(url), frameStep, Some(d), embed, dim, show, parse, now).outcome
            == Unique(d.videoId)
  {
  }

  /** A stored vector at exactly the threshold distance is not close
      enough: the upload is unique. */
  lemma ThresholdIsExclusive(c: Csvs, url: string, frameStep: int, d: Download, embed: Frame -> Vec, dim: nat,
                             show: real -> string, parse: string -> Option<real>, now: string)
    requires EmbedsTo(embed, dim)
    requires frameStep != 0 && FindLink(c.links, url).None?
    requires Extract(d.video, frameStep, DefaultNumFrames, embed, dim).Some?
    requires StoreDistance(c, Extract(d.video, frameStep, DefaultNumFrames, embed, dim).value, parse) == Some(UploadThreshold)
    ensures UploadVideo(c, Some(url), frameStep, Some(d), embed, dim, show, parse, now).outcome.Unique?
  {
  }

  /** A known link is answered from the table alone: whatever the download,
      the step, the extractor, the number format and the clock, the answer
      and the tables are the same. */
  lemma KnownLinkIgnoresVideo(c: Csvs, url: string, frameStep1: int, frameStep2: int,
                              d1: Option<Download>, d2: Option<Download>,
                              embed1: Frame -> Vec, dim1: nat, embed2: Frame -> Vec, dim2: nat,
                              show1: real -> string, parse1: string -> Option<real>,
                              show2: real -> string, parse2: string -> Option<real>,
                              now1: string, now2: string)
    requires EmbedsTo(embed1, dim1) && EmbedsTo(embed2, dim2)
    requires FindLink(c.links, url).Some?
    ensures UploadVideo(c, Some(url), frameStep1, d1, embed1, dim1, show1, parse1, now1)
         == UploadVideo(c, Some(url), frameStep2, d2, embed2, dim2, show2, parse2, now2)
  {
  }

  /** Submitting a url with no surrounding whitespace again after it was stored unique
      answers with the row just written, without a second download. */
  lemma ResubmitIsAlreadyStored(c: Csvs, url: string, frameStep: int, d: Download, embed: Frame -> Vec, dim: nat,
                                show: real -> string, parse: string -> Option<real>, now: string,
                                frameStep2: int, d2: Option<Download>, now2: string)
    requires EmbedsTo(embed, dim)
    requires IsStripped(url)
    requires UploadVideo(c, Some(url), frameStep, Some(d), embed, dim, show, parse, now).outcome.Unique?
    ensures var after := UploadVideo(c, Some(url), frameStep, Some(d), embed, dim, show, parse, now).after;
      UploadVideo(after, Some(url), frameStep2, d2, embed, dim, show, parse, now2)
        == Response(AlreadyStored(LinkRow(now, d.videoId, url)), after)
  {
    SaveLinkThenFind(c, d.videoId, url, now);
  }

  /** A url submitted with surrounding whitespace is stored as submitted but
      looked up stripped, so its own row never short-circuits a later
      submission of the same text. */
  lemma PaddedUrlNeverShortCircuits(c: Csvs, url: string, id: string, now: string)
    requires !IsStripped(url)
    requires FindLink(c.links, url).None?
    ensures FindLink(SaveLink(c, id, url, now).links, url).None?
  {
    StripFixedPoint(url);
    var links := SaveLink(c, id, url, now).links;
    assert links[|c.links|].link == url;
  }

  /** After a unique upload the metrics table reads back as before with the
      new features appended. */
  lemma UniqueUploadLoadsBack(c: Csvs, url: string, frameStep: int, d: Download, embed: Frame -> Vec, dim: nat,
                              show: real -> string, parse: string -> Option<real>, now: string)
    requires EmbedsTo(embed, dim) && dim > 0
    requires frameStep != 0 && Extract(d.video, frameStep, DefaultNumFrames, embed, dim).Some?
    requires ReadsBack(Extract(d.video, frameStep, DefaultNumFrames, embed, dim).value, show, parse)
    requires LoadMetrics(c.metrics, parse).Some?
    requires UploadVideo(c, Some(url), frameStep, Some(d), embed, dim, show, parse, now).outcome.Unique?
    ensures var after := UploadVideo(c, Some(url), frameStep, Some(d), embed, dim, show, parse, now).after;
      LoadMetrics(after.metrics, parse)
        == Some(LoadMetrics(c.metrics, parse).value + [Extract(d.video, frameStep, DefaultNumFrames, embed, dim).value])
  {
    var q := Extract(d.video, frameStep, DefaultNumFrames, embed, dim).value;
    SaveMetricsThenLoad(SaveLink(c, d.videoId, url, now), d.videoId, q, show, parse);
  }

  /** Uploading, under a new link, a video whose features are already in a
      readable store of matching length is a duplicate at distance zero. */
  lemma SameContentIsDuplicate(c: Csvs, url: string, frameStep: int, d: Download, embed: Frame -> Vec, dim: nat,
                               show: real -> string, parse: string -> Option<real>, now: string, k: nat)
    requires EmbedsTo(embed, dim)
    requires frameStep != 0 && FindLink(c.links, url).None?
    requires Extract(d.video, frameStep, DefaultNumFrames, embed, dim).Some?
    requires LoadMetrics(c.metrics, parse).Some?
    requires AllDim(LoadMetrics(c.metrics, parse).value, dim)
    requires k < |c.metrics|
    requires LoadMetrics(c.metrics, parse).value[k] == Extract(d.video, frameStep, DefaultNumFrames, embed, dim).value
    ensures UploadVideo(c, Some(url), frameStep, Some(d), embed, dim, show, parse, now).outcome == Duplicate(0.0)
  {
    var q := Extract(d.video, frameStep, DefaultNumFrames, embed, dim).value;
    var db := LoadMetrics(c.metrics, parse).value;
    SqDistSelf(q);
    assert SqDist(q, db[k]) == 0.0;
    assert Classify(c, q, parse, d.videoId) == Duplicate(0.0);
  }
}

=== FILE: cli.dfy ===
/**
 * The command-line tool (`main.py`): `search_duplicate` classifies a video
 * against the stored features by nearest squared L2 distance and a
 * threshold, and `main` dispatches to rebuild, search or delete.
 *
 * The flat L2 index is any search that returns a nearest position; which
 * nearest position it returns on a tie is left open.
 */
module Cli {
  import opened Options
  import opened Vectors
  import opened OrderedDict
  import opened FeatureExtractor
  import opened DatabaseManager
  import opened DatabaseBuilder

  const DefaultThreshold: real := 0.5

  /** How `search_duplicate` ends: features could not be extracted, the
      store lists no vector, the stored vectors do not fit the query's
      length (the index refuses them), or a verdict with the smallest
      distance, the id of a nearest stored video and whether it counts as a
      duplicate. */
  datatype SearchOutcome =
    | ExtractionFailed
    | EmptyDatabase
    | DimensionMismatch
    | Verdict(distance: real, closestId: string, isDuplicate: bool)

  /** `search_duplicate(video_path, threshold)` on the store in `dbPath`.
      The store's index is opened first; an extraction failure is reported
      before any feature file is listed, and an empty listing before anything
      is compared. A verdict carries the
      minimum squared distance, the id listed at a position attaining it,
      and is a duplicate exactly when that distance is below the threshold. */
  function SearchDuplicate(dbPath: string, disk: Disk, video: Capture, threshold: real,
                           embed: Frame -> Vec, dim: nat, nearest: (seq<Vec>, Vec) -> nat): (r: SearchOutcome)
    requires EmbedsTo(embed, dim)
    requires ExactSearch(nearest)
    ensures var q := Extract(video, DefaultFrameStep, DefaultNumFrames, embed, dim);
      r.ExtractionFailed? <==> q.None?
    ensures var listing := GetAllFeatures(Open(dbPath, disk));
      r.EmptyDatabase? <==>
        Extract(video, DefaultFrameStep, DefaultNumFrames, embed, dim).Some? && |listing.1| == 0
    ensures var q := Extract(video, DefaultFrameStep, DefaultNumFrames, embed, dim);
      var listing := GetAllFeatures(Open(dbPath, disk));
      r.DimensionMismatch? <==> q.Some? && |listing.0| > 0 && !AllDim(listing.0, |q.value|)
    ensures var q := Extract(video, DefaultFrameStep, DefaultNumFrames, embed, dim);
      var listing := GetAllFeatures(Open(dbPath, disk));
      r.Verdict? <==> q.Some? && |listing.0| > 0 && AllDim(listing.0, |q.value|)
    ensures r.Verdict? ==>
      var q := Extract(video, DefaultFrameStep, DefaultNumFrames, embed, dim).value;
      var listing := GetAllFeatures(Open(dbPath, disk));
      && |listing.0| > 0
      && AllDim(listing.0, |q|)
      && r.distance == MinSqDist(listing.0, q)
      && (exists p :: IsNearest(listing.0, q, p) && listing.1[p] == r.closestId)
      && (r.isDuplicate <==> r.distance < threshold)
  {
    var m := Open(dbPath, disk);
    match Extract(video, DefaultFrameStep, DefaultNumFrames, embed, dim)
    case None => ExtractionFailed
    case Some(q) =>
      var (db, ids) := GetAllFeatures(m);
      if |db| == 0 then EmptyDatabase
      else if !AllDim(db, |q|) then DimensionMismatch
      else
        var p := nearest(db, q);
        var distance := SqDist(q, db[p]);
        NearestDistance(db, q, p);
        Verdict(distance, ids[p], distance < threshold)
  }

  /** Two exact searches that break ties differently still agree on the
      distance and on the duplicate verdict; only the reported id may
      differ. */
  lemma SearchIgnoresTieBreak(dbPath: string, disk: Disk, video: Capture, threshold: real,
                              embed: Frame -> Vec, dim: nat,
                              nearest1: (seq<Vec>, Vec) -> nat, nearest2: (seq<Vec>, Vec) -> nat)
    requires EmbedsTo(embed, dim)
    requires ExactSearch(nearest1) && ExactSearch(nearest2)
    ensures var r1 := SearchDuplicate(dbPath, disk, video, threshold, embed, dim, nearest1);
      var r2 := SearchDuplicate(dbPath, disk, video, threshold, embed, dim, nearest2);
      && r1.Verdict? == r2.Verdict?
      && (r1.Verdict? ==> r1.distance == r2.distance && r1.isDuplicate == r2.isDuplicate)
  {
  }

  /** A video whose signature is stored, and whose stored vectors all have
      its length, is a duplicate of some stored video at distance zero
      under any positive threshold. */
  lemma SearchFindsStoredCopy(dbPath: string, disk: Disk, video: Capture, threshold: real,
                              embed: Frame -> Vec, dim: nat, nearest: (seq<Vec>, Vec) -> nat, id: string)
    requires EmbedsTo(embed, dim)
    requires ExactSearch(nearest)
    requires threshold > 0.0
    requires Extract(video, DefaultFrameStep, DefaultNumFrames, embed, dim).Some?
    requires var m := Open(dbPath, disk);
      && Get(m.index, id).Some?
      && Get(m.index, id).value in disk.files
      && disk.files[Get(m.index, id).value] == Extract(video, DefaultFrameStep, DefaultNumFrames, embed, dim).value
    requires AllDim(GetAllFeatures(Open(dbPath, disk)).0, dim)
    ensures var r := SearchDuplicate(dbPath, disk, video, threshold, embed, dim, nearest);
      r.Verdict? && r.distance == 0.0 && r.isDuplicate
  {
    var q := Extract(video, DefaultFrameStep, DefaultNumFrames, embed, dim).value;
    var listing := GetAllFeatures(Open(dbPath, disk));
    assert id in listing.1;
    var k :| 0 <= k < |listing.1| && listing.1[k] == id;
    assert listing.0[k] == q;
    SqDistSelf(q);
  }

  /** The command-line options `main` reads. */
  datatype Args = Args(buildDb: bool, videosDir: string, search: Option<string>, threshold: real, delete: Option<string>)

  /** The options as argparse fills them in: an option left off the command
      line takes its default (`--videos-dir videos`, `--threshold 0.5`, no
      search, no delete). */
  function ParseArgs(buildDb: bool, videosDir: Option<string>, search: Option<string>,
                     threshold: Option<real>, delete: Option<string>): (a: Args)
    ensures a.buildDb == buildDb && a.search == search && a.delete == delete
    ensures a.videosDir == if videosDir.Some? then videosDir.value else DefaultVideosDir
    ensures a.threshold == if threshold.Some? then threshold.value else DefaultThreshold
  {
    Args(buildDb, videosDir.GetOr(DefaultVideosDir), search, threshold.GetOr(DefaultThreshold), delete)
  }

  /** What `main` runs. */
  datatype Command =
    | BuildDb(videosDir: string)
    | Search(videoPath: string, threshold: real)
    | Delete(videoId: string)
    | Help

  /** Python truthiness of an optional string argument: present and not
      empty. */
  predicate Given(o: Option<string>)
  {
    o.Some? && o.value != ""
  }

  /** `main`'s if/elif chain: rebuild wins over search, search over delete,
      and help is printed when none applies. */
  function Dispatch(a: Args): (c: Command)
    ensures c.BuildDb? <==> a.buildDb
    ensures c.Search? <==> !a.buildDb && Given(a.search)
    ensures c.Delete? <==> !a.buildDb && !Given(a.search) && Given(a.delete)
    ensures c.Help? <==> !a.buildDb && !Given(a.search) && !Given(a.delete)
    ensures c.BuildDb? ==> c.videosDir == a.videosDir
    ensures c.Search? ==> c.videoPath == a.search.value && c.threshold == a.threshold
    ensures c.Delete? ==> c.videoId == a.delete.value
  {
    if a.buildDb then BuildDb(a.videosDir)
    else if Given(a.search) then Search(a.search.value, a.threshold)
    else if Given(a.delete) then Delete(a.delete.value)
    else Help
  }

  /** The world a command runs in: the store's disk, what each directory
      lists (`None` when `os.listdir` raises because the directory is
      missing) and what each video path decodes to. */
  datatype World = World(disk: Disk, listDir: string -> Option<seq<DirEntry>>, open: string -> Capture)

  /** Running `main`: the disk afterwards and, for a search, its outcome. A
      search and help leave the disk as it was; so does a rebuild from a
      directory that cannot be listed, which stops before anything is
      written. */
  function Execute(a: Args, w: World, embed: Frame -> Vec, dim: nat, nearest: (seq<Vec>, Vec) -> nat): (r: (Disk, Option<SearchOutcome>))
    requires EmbedsTo(embed, dim)
    requires ExactSearch(nearest)
    ensures r.1.Some? <==> Dispatch(a).Search?
    ensures Dispatch(a).Search? || Dispatch(a).Help? ==> r.0 == w.disk
    ensures Dispatch(a).Delete? ==> r.0 == DeleteVideo(Open(DefaultDbPath, w.disk), a.delete.value).disk
    ensures Dispatch(a).Search? ==>
      r.1 == Some(SearchDuplicate(DefaultDbPath, w.disk, w.open(a.search.value), a.threshold, embed, dim, nearest))
    ensures Dispatch(a).BuildDb? ==>
      r.0 == (match w.listDir(a.videosDir)
              case None => w.disk
              case Some(entries) => BuildDatabase(DefaultDbPath, w.disk, entries, embed, dim).disk)
  {
    match Dispatch(a)
    case BuildDb(dir) =>
      (match w.listDir(dir)
       case None => (w.disk, None)
       case Some(entries) => (BuildDatabase(DefaultDbPath, w.disk, entries, embed, dim).disk, None))
    case Search(path, threshold) =>
      (w.disk, Some(SearchDuplicate(DefaultDbPath, w.disk, w.open(path), threshold, embed, dim, nearest)))
    case Delete(id) => (DeleteVideo(Open(DefaultDbPath, w.disk), id).disk, None)
    case Help => (w.disk, None)
  }

  /** Without options `main` prints help and changes nothing. */
  lemma NoOptionsPrintsHelp(w: World, embed: Frame -> Vec, dim: nat, nearest: (seq<Vec>, Vec) -> nat)
    requires EmbedsTo(embed, dim)
    requires ExactSearch(nearest)
    ensures var a := ParseArgs(false, None, None, None, None);
      Dispatch(a) == Help && Execute(a, w, embed, dim, nearest) == (w.disk, None)
  {
  }

  /** `--search path` alone searches with the threshold 0.5, and
      `--build-db` alone rebuilds from `videos`. */
  lemma DefaultsApply(path: string)
    requires path != ""
    ensures Dispatch(ParseArgs(false, None, Some(path), None, None)) == Search(path, 0.5)
    ensures Dispatch(ParseArgs(true, None, None, None, None)) == BuildDb("videos")
  {
  }
}

=== FILE: database_builder.dfy ===
/**
 * `build_database(videos_dir)`: rebuild the vector store from the regular
 * files of a directory. An empty directory leaves the store untouched;
 * otherwise the index is cleared and saved, then every file whose features
 * can be extracted is added under its name without extension.
 */
module DatabaseBuilder {
  import opened Options
  import opened Text
  import opened Vectors
  import opened OrderedDict
  import opened FeatureExtractor
  import opened DatabaseManager

  /** One name returned by `os.listdir`, whether `os.path.isfile` holds of
      it, and the video it decodes to. */
  datatype DirEntry = DirEntry(name: string, isFile: bool, video: Capture)

  const DefaultVideosDir: string := "videos"

  /** The regular files of a listing, in listing order. */
  function VideoFiles(entries: seq<DirEntry>): (r: seq<DirEntry>)
    ensures forall e :: e in r <==> e in entries && e.isFile
    ensures |r| <= |entries|
  {
    if |entries| == 0 then []
    else (if entries[0].isFile then [entries[0]] else []) + VideoFiles(entries[1..])
  }

  /** The filter keeps the listing's order: the files of a listing split in
      two are the files of the first part followed by those of the second. */
  lemma {:induction false} VideoFilesAppend(a: seq<DirEntry>, b: seq<DirEntry>)
    ensures VideoFiles(a + b) == VideoFiles(a) + VideoFiles(b)
    decreases |a|
  {
    if |a| == 0 {
      assert a + b == b;
    } else {
      assert (a + b)[0] == a[0];
      assert (a + b)[1..] == a[1..] + b;
      VideoFilesAppend(a[1..], b);
    }
  }

  /** A listing of files only is kept whole and in order. */
  lemma {:induction false} VideoFilesAllFiles(entries: seq<DirEntry>)
    requires forall i :: 0 <= i < |entries| ==> entries[i].isFile
    ensures VideoFiles(entries) == entries
    decreases |entries|
  {
    if |entries| > 0 {
      VideoFilesAllFiles(entries[1..]);
    }
  }

  /** `extractor.extract(video_path)` with the default step and cap. */
  function FileFeatures(e: DirEntry, embed: Frame -> Vec, dim: nat): Option<Vec>
    requires EmbedsTo(embed, dim)
  {
    Extract(e.video, DefaultFrameStep, DefaultNumFrames, embed, dim)
  }

  /** The loop over the files: add each file whose features were extracted
      under its stem, skip the others. Only feature files are written, so
      every file that was on disk before is still there, and a saved index
      stays saved. */
  function AddAll(m: Manager, files: seq<DirEntry>, embed: Frame -> Vec, dim: nat): (r: Manager)
    requires EmbedsTo(embed, dim)
    ensures r.dbPath == m.dbPath
    ensures m.disk.files.Keys <= r.disk.files.Keys
    ensures Persisted(m) ==> Persisted(r)
    decreases |files|
  {
    if |files| == 0 then m
    else
      var m1 := match FileFeatures(files[0], embed, dim)
        case Some(v) => AddVideo(m, Stem(files[0].name), v)
        case None => m;
      AddAll(m1, files[1..], embed, dim)
  }

  /** Reference definition of the winner for a stem: the features of the
      last file in list order whose stem is `s` and whose extraction
      succeeded, if any. */
  function LastFeatures(files: seq<DirEntry>, s: string, embed: Frame -> Vec, dim: nat): Option<Vec>
    requires EmbedsTo(embed, dim)
  {
    if |files| == 0 then None
    else
      var later := LastFeatures(files[1..], s, embed, dim);
      if later.Some? then later
      else if Stem(files[0].name) == s then FileFeatures(files[0], embed, dim)
      else None
  }

  /** A stem has a winner exactly when some file with that stem was
      extracted successfully. */
  lemma {:induction false} LastFeaturesSome(files: seq<DirEntry>, s: string, embed: Frame -> Vec, dim: nat)
    requires EmbedsTo(embed, dim)
    ensures LastFeatures(files, s, embed, dim).Some? <==>
      exists i :: 0 <= i < |files| && Stem(files[i].name) == s && FileFeatures(files[i], embed, dim).Some?
  {
    if |files| > 0 {
      LastFeaturesSome(files[1..], s, embed, dim);
      if LastFeatures(files[1..], s, embed, dim).Some? {
        var i :| 0 <= i < |files[1..]| && Stem(files[1..][i].name) == s && FileFeatures(files[1..][i], embed, dim).Some?;
        assert files[i + 1] == files[1..][i];
      }
    }
  }

  /** After the loop, a stem with a winner maps to its feature path; any
      other key keeps the entry it had before. */
  lemma {:induction false} AddAllIndex(m: Manager, files: seq<DirEntry>, s: string, embed: Frame -> Vec, dim: nat)
    requires EmbedsTo(embed, dim)
    ensures Get(AddAll(m, files, embed, dim).index, s) ==
      if LastFeatures(files, s, embed, dim).Some? then Some(FeaturePath(m.dbPath, s)) else Get(m.index, s)
    decreases |files|
  {
    if |files| > 0 {
      var m1 := match FileFeatures(files[0], embed, dim)
        case Some(v) => AddVideo(m, Stem(files[0].name), v)
        case None => m;
      AddAllIndex(m1, files[1..], s, embed, dim);
    }
  }

  /** A name without `/` has a stem without `/`. */
  lemma StemNoSlash(name: string)
    requires '/' !in name
    ensures '/' !in Stem(name)
    ensures |Stem(name)| == 0 || Stem(name)[0] != '/'
  {
    var r := Stem(name);
    assert forall k :: 0 <= k < |r| ==> r[k] == name[k];
  }

  /** After the loop, the feature file of a stem with a winner holds the
      winner's features (a later file with the same stem overwrites an
      earlier one); the feature file of any other stem is as before. File
      names never contain `/`, so distinct stems have distinct paths. */
  lemma {:induction false} AddAllFiles(m: Manager, files: seq<DirEntry>, s: string, embed: Frame -> Vec, dim: nat)
    requires EmbedsTo(embed, dim)
    requires forall k :: 0 <= k < |files| ==> '/' !in files[k].name
    requires '/' !in s
    ensures var r := AddAll(m, files, embed, dim);
      var path := FeaturePath(m.dbPath, s);
      match LastFeatures(files, s, embed, dim)
      case Some(v) => path in r.disk.files && r.disk.files[path] == v
      case None =>
        (path in r.disk.files <==> path in m.disk.files) &&
        (path in m.disk.files ==> r.disk.files[path] == m.disk.files[path])
    decreases |files|
  {
    if |files| > 0 {
      var f := files[0];
      var path := FeaturePath(m.dbPath, s);
      var m1 := match FileFeatures(f, embed, dim)
        case Some(v) => AddVideo(m, Stem(f.name), v)
        case None => m;
      AddAllFiles(m1, files[1..], s, embed, dim);
      if FileFeatures(f, embed, dim).Some? && Stem(f.name) != s {
        StemNoSlash(f.name);
        assert s == [] || s[0] != '/';
        if FeaturePath(m.dbPath, Stem(f.name)) == path {
          FeaturePathInjective(m.dbPath, Stem(f.name), s);
        }
      }
    }
  }

  /** `db_manager.index.clear(); db_manager.save_index()`: the index is
      emptied and saved; no feature file is deleted. */
  function ClearIndex(m: Manager): (r: Manager)
    ensures r.dbPath == m.dbPath
    ensures r.index == [] && Persisted(r)
    ensures r.disk.files == m.disk.files
  {
    SaveIndex(m.(index := []))
  }

  /** `build_database(videos_dir)` against the store in `dbPath`. With no
      regular file the store is left exactly as it was; otherwise the
      rebuilt index is saved and every old feature file is kept. */
  function BuildDatabase(dbPath: string, disk: Disk, entries: seq<DirEntry>, embed: Frame -> Vec, dim: nat): (r: Manager)
    requires EmbedsTo(embed, dim)
    ensures VideoFiles(entries) == [] ==> r.disk == disk && r.index == Open(dbPath, disk).index
    ensures VideoFiles(entries) != [] ==> Persisted(r) && disk.files.Keys <= r.disk.files.Keys
  {
    var m := Open(dbPath, disk);
    var files := VideoFiles(entries);
    if |files| == 0 then m
    else AddAll(ClearIndex(m), files, embed, dim)
  }

  /** After a rebuild from a non-empty directory the index keys are exactly
      the stems of the files whose extraction succeeded, each mapped to its
      feature path; whatever the index held before is gone. */
  lemma RebuildKeys(dbPath: string, disk: Disk, entries: seq<DirEntry>, embed: Frame -> Vec, dim: nat, s: string)
    requires EmbedsTo(embed, dim)
    requires VideoFiles(entries) != []
    ensures var files := VideoFiles(entries);
      var r := BuildDatabase(dbPath, disk, entries, embed, dim);
      && (Get(r.index, s).Some? <==>
          exists i :: 0 <= i < |files| && Stem(files[i].name) == s && FileFeatures(files[i], embed, dim).Some?)
      && (Get(r.index, s).Some? ==> Get(r.index, s).value == FeaturePath(dbPath, s))
  {
    var files := VideoFiles(entries);
    AddAllIndex(ClearIndex(Open(dbPath, disk)), files, s, embed, dim);
    LastFeaturesSome(files, s, embed, dim);
  }

  /** After a rebuild from a non-empty directory the feature file of each
      surviving stem holds the features of the last file with that stem. */
  lemma RebuildLaterWins(dbPath: string, disk: Disk, entries: seq<DirEntry>, embed: Frame -> Vec, dim: nat, s: string)
    requires EmbedsTo(embed, dim)
    requires VideoFiles(entries) != []
    requires forall k :: 0 <= k < |entries| ==> '/' !in entries[k].name
    requires '/' !in s
    ensures var r := BuildDatabase(dbPath, disk, entries, embed, dim);
      LastFeatures(VideoFiles(entries), s, embed, dim).Some? ==>
        && FeaturePath(dbPath, s) in r.disk.files
        && r.disk.files[FeaturePath(dbPath, s)] == LastFeatures(VideoFiles(entries), s, embed, dim).value
  {
    var files := VideoFiles(entries);
    assert forall k :: 0 <= k < |files| ==> files[k] in entries;
    AddAllFiles(ClearIndex(Open(dbPath, disk)), files, s, embed, dim);
  }
}

=== FILE: database_manager.dfy ===
/**
 * `DatabaseManager`: the vector store of the command-line tool. An
 * insertion-ordered index maps each video id to the path of its feature file
 * `<db_path>/<id>.npy`; the index itself is pickled to `<db_path>/index.pkl`
 * after every change. Disk contents are modelled as the pickled index, if
 * any, and a map from feature-file paths to the vectors stored in them.
 */
module DatabaseManager {
  import opened Options
  import opened Text
  import opened Vectors
  import opened OrderedDict

  /** id -> feature-file path, in insertion order. */
  type Index = Dict<string, string>

  /** What lies under the database directory. */
  datatype Disk = Disk(indexFile: Option<Index>, files: map<string, Vec>)

  /** A manager: its directory, its in-memory index and the disk. */
  datatype Manager = Manager(dbPath: string, index: Index, disk: Disk)

  const DefaultDbPath: string := "database"

  /** `os.path.join(db_path, f"{video_id}.npy")`. */
  function FeaturePath(dbPath: string, id: string): string
  {
    PathJoin(dbPath, id + ".npy")
  }

  /** Feature paths of ids that are not absolute are distinct. */
  lemma FeaturePathInjective(dbPath: string, id1: string, id2: string)
    requires |id1| == 0 || id1[0] != '/'
    requires |id2| == 0 || id2[0] != '/'
    requires FeaturePath(dbPath, id1) == FeaturePath(dbPath, id2)
    ensures id1 == id2
  {
    assert |id1 + ".npy"| == 0 || (id1 + ".npy")[0] != '/';
    assert |id2 + ".npy"| == 0 || (id2 + ".npy")[0] != '/';
    PathJoinInjective(dbPath, id1 + ".npy", id2 + ".npy");
    AppendCancel(id1, id2, ".npy");
  }

  /** An absolute id escapes the database directory. Under the default
      relative directory its feature file lies outside the store; under a
      store at `/database` it is the feature file of another, relative id. */
  lemma AbsoluteIdCollides()
    ensures FeaturePath(DefaultDbPath, "/tmp/a") == "/tmp/a.npy"
    ensures FeaturePath("/database", "/database/a") == FeaturePath("/database", "a")
  {
  }

  /** The in-memory index agrees with the pickled one. */
  predicate Persisted(m: Manager)
  {
    m.disk.indexFile == Some(m.index)
  }

  /** `DatabaseManager(db_path)` followed by `load_index`: the pickled index
      when the index file exists, the empty index otherwise. */
  function Open(dbPath: string, disk: Disk): (m: Manager)
    ensures m.dbPath == dbPath && m.disk == disk
    ensures disk.indexFile.None? ==> m.index == []
    ensures disk.indexFile.Some? ==> Persisted(m)
  {
    Manager(dbPath, disk.indexFile.GetOr([]), disk)
  }

  /** `save_index`: pickle the in-memory index; nothing else changes. */
  function SaveIndex(m: Manager): (r: Manager)
    ensures Persisted(r)
    ensures r.dbPath == m.dbPath && r.index == m.index && r.disk.files == m.disk.files
  {
    m.(disk := m.disk.(indexFile := Some(m.index)))
  }

  /** Saving and then reopening the directory gives the same index back. */
  lemma SaveThenOpen(m: Manager)
    ensures Open(m.dbPath, SaveIndex(m).disk) == SaveIndex(m)
    ensures Open(m.dbPath, SaveIndex(m).disk).index == m.index
  {
  }

  /** `add_video(video_id, features)`: write the feature file, point the
      index entry at it, save the index. A present id is overwritten in
      place, not rejected; every other index entry and every other file is
      left as it was. */
  function AddVideo(m: Manager, id: string, features: Vec): (r: Manager)
    ensures r.dbPath == m.dbPath
    ensures Get(r.index, id) == Some(FeaturePath(m.dbPath, id))
    ensures forall k :: k != id ==> Get(r.index, k) == Get(m.index, k)
    ensures Keys(r.index) == Keys(m.index) + {id}
    ensures id in Keys(m.index) ==> |r.index| == |m.index|
    ensures id !in Keys(m.index) ==> |r.index| == |m.index| + 1
    ensures FeaturePath(m.dbPath, id) in r.disk.files
    ensures r.disk.files[FeaturePath(m.dbPath, id)] == features
    ensures forall p :: p != FeaturePath(m.dbPath, id) ==>
      (p in r.disk.files <==> p in m.disk.files) &&
      (p in m.disk.files ==> r.disk.files[p] == m.disk.files[p])
    ensures Persisted(r)
  {
    var path := FeaturePath(m.dbPath, id);
    var files := m.disk.files[path := features];
    SaveIndex(Manager(m.dbPath, Put(m.index, id, path), m.disk.(files := files)))
  }

  /** `get_all_features` from index position `i` on: the vectors and ids
      of the entries whose file exists, position by position. */
  function ListFrom(index: Index, files: map<string, Vec>, i: nat): (r: (seq<Vec>, seq<string>))
    requires i <= |index|
    ensures |r.0| == |r.1| <= |index| - i
    decreases |index| - i
  {
    if i == |index| then ([], [])
    else
      var rest := ListFrom(index, files, i + 1);
      var (id, path) := index[i];
      if path in files then ([files[path]] + rest.0, [id] + rest.1) else rest
  }

  /** Every listed id has an index position from `i` on, its file exists,
      and the listed vector is the one in that file. */
  lemma {:induction false} ListSound(index: Index, files: map<string, Vec>, i: nat)
    requires i <= |index|
    ensures forall k :: 0 <= k < |ListFrom(index, files, i).1| ==>
      && i <= Pos(index, ListFrom(index, files, i).1[k]) < |index|
      && index[Pos(index, ListFrom(index, files, i).1[k])].1 in files
      && ListFrom(index, files, i).0[k] == files[index[Pos(index, ListFrom(index, files, i).1[k])].1]
    decreases |index| - i
  {
    if i < |index| {
      ListSound(index, files, i + 1);
      var rest := ListFrom(index, files, i + 1);
      var (id, path) := index[i];
      assert Pos(index, id) == i;
      var r := ListFrom(index, files, i);
      if path in files {
        assert r == ([files[path]] + rest.0, [id] + rest.1);
        assert forall k :: 1 <= k < |r.1| ==> r.1[k] == rest.1[k - 1] && r.0[k] == rest.0[k - 1];
      } else {
        assert r == rest;
      }
    }
  }

  /** The listing contains every entry from position `i` on whose file
      exists. */
  lemma {:induction false} ListComplete(index: Index, files: map<string, Vec>, i: nat)
    requires i <= |index|
    ensures forall j :: i <= j < |index| && index[j].1 in files ==> index[j].0 in ListFrom(index, files, i).1
    decreases |index| - i
  {
    if i < |index| {
      ListComplete(index, files, i + 1);
    }
  }

  /** The ids appear in the order of their index positions. */
  predicate InIndexOrder(index: Index, ids: seq<string>)
  {
    forall a, b :: 0 <= a < b < |ids| ==> Pos(index, ids[a]) < Pos(index, ids[b])
  }

  /** An id placed before later-positioned ids keeps index order. */
  lemma InIndexOrderCons(index: Index, id: string, rest: seq<string>)
    requires InIndexOrder(index, rest)
    requires forall k :: 0 <= k < |rest| ==> Pos(index, id) < Pos(index, rest[k])
    ensures InIndexOrder(index, [id] + rest)
  {
    var ids := [id] + rest;
    forall a, b | 0 <= a < b < |ids|
      ensures Pos(index, ids[a]) < Pos(index, ids[b])
    {
      assert ids[b] == rest[b - 1];
      if a > 0 {
        assert ids[a] == rest[a - 1];
      }
    }
  }

  /** The listing follows index order. */
  lemma {:induction false} ListOrdered(index: Index, files: map<string, Vec>, i: nat)
    requires i <= |index|
    ensures InIndexOrder(index, ListFrom(index, files, i).1)
    decreases |index| - i
  {
    if i < |index| {
      ListOrdered(index, files, i + 1);
      ListSound(index, files, i + 1);
      var rest := ListFrom(index, files, i + 1).1;
      var id := index[i].0;
      assert Pos(index, id) == i;
      if index[i].1 in files {
        InIndexOrderCons(index, id, rest);
      }
    }
  }

  /** `get_all_features()`: the stored vectors and their ids, position by
      position, in index order, for exactly the entries whose feature file
      exists. Entries with a missing file are skipped; nothing is changed. */
  function GetAllFeatures(m: Manager): (r: (seq<Vec>, seq<string>))
    ensures |r.0| == |r.1|
    ensures forall k :: 0 <= k < |r.1| ==>
      && Get(m.index, r.1[k]).Some?
      && Get(m.index, r.1[k]).value in m.disk.files
      && r.0[k] == m.disk.files[Get(m.index, r.1[k]).value]
    ensures forall id :: Get(m.index, id).Some? && Get(m.index, id).value in m.disk.files ==> id in r.1
    ensures InIndexOrder(m.index, r.1)
  {
    ListSound(m.index, m.disk.files, 0);
    ListComplete(m.index, m.disk.files, 0);
    ListOrdered(m.index, m.disk.files, 0);
    var r := ListFrom(m.index, m.disk.files, 0);
    assert forall id :: Get(m.index, id).Some? ==> m.index[Pos(m.index, id)].0 == id;
    r
  }

  /** The listing is empty exactly when no index entry has its file. */
  lemma EmptyListing(m: Manager)
    ensures |GetAllFeatures(m).1| == 0 <==>
      forall id :: Get(m.index, id).Some? ==> Get(m.index, id).value !in m.disk.files
  {
    var r := GetAllFeatures(m);
    if |r.1| > 0 {
      assert Get(m.index, r.1[0]).Some?;
    }
  }

  /** `delete_video(video_id)`: for a present id, remove its feature file
      (when it exists) and its index entry, then save; for an absent id
      change nothing, not even the index file. */
  function DeleteVideo(m: Manager, id: string): (r: Manager)
    ensures r.dbPath == m.dbPath
    ensures id !in Keys(m.index) ==> r == m
    ensures id in Keys(m.index) ==>
      var path := Get(m.index, id).value;
      && Get(r.index, id) == None
      && Keys(r.index) == Keys(m.index) - {id}
      && (forall k :: k != id ==> Get(r.index, k) == Get(m.index, k))
      && path !in r.disk.files
      && (forall p :: p != path ==>
            (p in r.disk.files <==> p in m.disk.files) &&
            (p in r.disk.files ==> r.disk.files[p] == m.disk.files[p]))
      && Persisted(r)
  {
    match Get(m.index, id)
    case None => m
    case Some(path) =>
      var files := m.disk.files - {path};
      SaveIndex(Manager(m.dbPath, Remove(m.index, id), m.disk.(files := files)))
  }

  /** After `add_video` the id is listed, with the features just written. */
  lemma AddThenList(m: Manager, id: string, features: Vec)
    ensures var listing := GetAllFeatures(AddVideo(m, id, features));
      exists k :: 0 <= k < |listing.1| && listing.1[k] == id && listing.0[k] == features
  {
    var r := AddVideo(m, id, features);
    var listing := GetAllFeatures(r);
    assert id in listing.1;
    var k :| 0 <= k < |listing.1| && listing.1[k] == id;
    assert listing.0[k] == r.disk.files[FeaturePath(m.dbPath, id)];
  }

  /** After `delete_video` the id is no longer listed, while every other id
      whose feature file is a different one stays listed. */
  lemma DeleteThenList(m: Manager, id: string)
    requires id in Keys(m.index)
    ensures var listing := GetAllFeatures(DeleteVideo(m, id));
      && id !in listing.1
      && forall k ::
           (k != id && Get(m.index, k).Some? && Get(m.index, k).value in m.disk.files
            && Get(m.index, k).value != Get(m.index, id).value) ==> k in listing.1
  {
  }
}

=== FILE: feature_extractor.dfy ===
/**
 * `FeatureExtractor.extract`: sample frame indices 0, S, 2S, ... below the
 * reported frame count, keep the first `num_frames` of them, read the video
 * sequentially until the count is reached or a read fails, embed exactly the
 * sampled frames that were read, and return the elementwise mean of their
 * embeddings, or nothing when no frame was embedded.
 *
 * The decoder is a sequence of read results and the embedding network an
 * arbitrary function from frames to vectors of one fixed length.
 */
module FeatureExtractor {
  import opened Options
  import opened Vectors

  /** One decoded image; only the embedding looks at its pixels. */
  datatype Frame = Frame(pixels: seq<int>)

  /** An opened video: the frame count its container reports, truncated to
      an integer, and what each successive `read()` returns. A read beyond
      the end of `stream` fails. */
  datatype Capture = Capture(frameCount: int, stream: seq<Option<Frame>>)

  /** Defaults of `extract`. */
  const DefaultFrameStep: int := 5
  const DefaultNumFrames: int := 10

  /** The embedding maps every frame to a vector of length `dim`. */
  ghost predicate EmbedsTo(embed: Frame -> Vec, dim: nat)
  {
    forall f :: |embed(f)| == dim
  }

  /** `np.arange(start, stop, step)` for a non-zero integer step. */
  function Arange(start: int, stop: int, step: int): seq<int>
    requires step != 0
    decreases if step > 0 then stop - start else start - stop
  {
    if (step > 0 && start >= stop) || (step < 0 && start <= stop) then []
    else [start] + Arange(start + step, stop, step)
  }

  /** With a positive step, item `k` of `arange` is `start + k * step`. */
  lemma {:induction false} ArangeAt(start: int, stop: int, step: int, k: nat)
    requires step > 0 && k < |Arange(start, stop, step)|
    ensures Arange(start, stop, step)[k] == start + k * step
    decreases k
  {
    if k > 0 {
      ArangeAt(start + step, stop, step, k - 1);
      assert (k - 1) * step + step == k * step;
    }
  }

  /** With a positive step, `arange` lists `start + k * step` for every `k`
      that keeps the value below `stop`, and no more. */
  lemma {:induction false} ArangeUp(start: int, stop: int, step: int)
    requires step > 0
    ensures forall k :: 0 <= k < |Arange(start, stop, step)| ==>
      Arange(start, stop, step)[k] == start + k * step < stop
    ensures start + |Arange(start, stop, step)| * step >= stop
    decreases stop - start
  {
    var a := Arange(start, stop, step);
    forall k | 0 <= k < |a|
      ensures a[k] == start + k * step < stop
    {
      ArangeAt(start, stop, step, k);
      ArangeBelow(start, stop, step, k);
    }
    ArangeLength(start, stop, step);
  }

  /** Every item of `arange` lies below `stop`. */
  lemma {:induction false} ArangeBelow(start: int, stop: int, step: int, k: nat)
    requires step > 0 && k < |Arange(start, stop, step)|
    ensures Arange(start, stop, step)[k] < stop
    decreases k
  {
    if k > 0 {
      ArangeBelow(start + step, stop, step, k - 1);
    }
  }

  /** `arange` stops only once the next value would reach `stop`. */
  lemma {:induction false} ArangeLength(start: int, stop: int, step: int)
    requires step > 0
    ensures start + |Arange(start, stop, step)| * step >= stop
    decreases stop - start
  {
    if start < stop {
      var n := |Arange(start + step, stop, step)|;
      ArangeLength(start + step, stop, step);
      assert start + (n + 1) * step == start + step + n * step;
    }
  }

  /** With a negative step and a non-negative stop, `arange(0, stop, step)`
      is empty. */
  lemma ArangeDown(stop: int, step: int)
    requires step < 0 && stop >= 0
    ensures Arange(0, stop, step) == []
  {
  }

  /** Python's slice `s[:n]`; a negative `n` drops `-n` items from the end. */
  function Head<T>(s: seq<T>, n: int): (r: seq<T>)
    ensures r <= s
    ensures 0 <= n <= |s| ==> |r| == n
    ensures n > |s| ==> r == s
    ensures n < 0 ==> |r| == if |s| + n > 0 then |s| + n else 0
  {
    if n >= |s| then s
    else if n >= 0 then s[..n]
    else if |s| + n > 0 then s[..|s| + n]
    else []
  }

  /** The frame indices `extract` samples:
      `np.arange(0, frame_count, step=frame_step)[:num_frames]`. */
  function SelectIndices(frameCount: int, frameStep: int, numFrames: int): seq<int>
    requires frameStep != 0
  {
    Head(Arange(0, frameCount, frameStep), numFrames)
  }

  /** For a positive step and cap the sampled indices are the first
      multiples of the step below the frame count: index `k` is `k * step`,
      there are at most `numFrames` of them, they increase strictly, and the
      list stops short of the cap only when the next multiple is out of range.
      In particular index 0 is sampled whenever the video has a frame. */
  lemma SelectIndicesSpec(frameCount: int, frameStep: int, numFrames: int)
    requires frameStep > 0 && numFrames >= 0
    ensures var r := SelectIndices(frameCount, frameStep, numFrames);
      && |r| <= numFrames
      && (forall k :: 0 <= k < |r| ==> r[k] == k * frameStep && 0 <= r[k] < frameCount)
      && (forall a, b :: 0 <= a < b < |r| ==> r[a] < r[b])
      && (|r| < numFrames ==> |r| * frameStep >= frameCount)
      && (frameCount > 0 && numFrames > 0 ==> |r| > 0 && r[0] == 0)
      && (frameCount <= frameStep ==> |r| <= 1)
  {
    var all := Arange(0, frameCount, frameStep);
    var r := SelectIndices(frameCount, frameStep, numFrames);
    ArangeUp(0, frameCount, frameStep);
    assert forall k :: 0 <= k < |r| ==> r[k] == all[k];
    forall a, b | 0 <= a < b < |r|
      ensures r[a] < r[b]
    {
      MulMonotone(a, b, frameStep);
    }
    if frameCount > 0 && numFrames > 0 {
      assert |all| > 0;
    }
    if |all| > 0 {
      ArangeAt(0, frameCount, frameStep, |all| - 1);
      ArangeBelow(0, frameCount, frameStep, |all| - 1);
      MulAtLeast(|all| - 1, frameStep);
    }
  }

  lemma MulAtLeast(n: int, step: int)
    requires step > 0
    ensures n >= 1 ==> n * step >= step
  {
    if n >= 1 {
      assert n * step == step + (n - 1) * step;
    }
  }

  lemma MulMonotone(a: int, b: int, step: int)
    requires a < b && step > 0
    ensures a * step < b * step
  {
    assert b * step == a * step + (b - a) * step;
  }

  /** With a negative step nothing is sampled from a video whose frame
      count is not negative. */
  lemma SelectIndicesNegativeStep(frameCount: int, frameStep: int, numFrames: int)
    requires frameStep < 0 && frameCount >= 0
    ensures SelectIndices(frameCount, frameStep, numFrames) == []
  {
    ArangeDown(frameCount, frameStep);
  }

  /** What the `idx`-th `read()` returns. */
  function ReadAt(cap: Capture, idx: int): Option<Frame>
  {
    if 0 <= idx < |cap.stream| then cap.stream[idx] else None
  }

  /** Number of reads that succeed before the first failing one. */
  function Readable(stream: seq<Option<Frame>>): (n: nat)
    ensures n <= |stream|
    ensures forall i :: 0 <= i < n ==> stream[i].Some?
    ensures n < |stream| ==> stream[n].None?
  {
    if |stream| == 0 || stream[0].None? then 0 else 1 + Readable(stream[1..])
  }

  /** Number of frames the loop obtains: it stops at the frame count or at
      the first failed read, whichever comes first. */
  function ReadLimit(cap: Capture): int
  {
    var n := Readable(cap.stream);
    if cap.frameCount < n then cap.frameCount else n
  }

  /** Result of the read loop: how many `read()` calls it made, the indices
      of the frames it embedded, in stream order, and their embeddings. */
  datatype ScanResult = ScanResult(readCalls: nat, indices: seq<int>, vectors: seq<Vec>)

  /** The loop `for idx in range(frame_count)` of `extract`, from iteration
      `idx` on: read a frame, stop on failure, embed it if its index was
      sampled. Every read before `idx` succeeded. The loop reads up to the
      frame count or one read past the readable frames, embeds exactly the
      sampled indices it read, in increasing order, and nothing after a
      failed read. */
  function ScanFrom(cap: Capture, selected: seq<int>, embed: Frame -> Vec, idx: nat): (r: ScanResult)
    requires idx <= Readable(cap.stream)
    ensures r.readCalls == if idx >= cap.frameCount then 0
                       else if Readable(cap.stream) < cap.frameCount then Readable(cap.stream) + 1 - idx
                       else cap.frameCount - idx
    ensures |r.vectors| == |r.indices|
    ensures forall k :: 0 <= k < |r.indices| ==>
      && idx <= r.indices[k] < ReadLimit(cap)
      && r.indices[k] in selected
      && ReadAt(cap, r.indices[k]).Some?
      && r.vectors[k] == embed(ReadAt(cap, r.indices[k]).value)
    decreases cap.frameCount - idx
  {
    if idx >= cap.frameCount then ScanResult(0, [], [])
    else
      match ReadAt(cap, idx)
      case None => ScanResult(1, [], [])
      case Some(frame) =>
        var rest := ScanFrom(cap, selected, embed, idx + 1);
        if idx in selected then
          ScanResult(rest.readCalls + 1, [idx] + rest.indices, [embed(frame)] + rest.vectors)
        else
          ScanResult(rest.readCalls + 1, rest.indices, rest.vectors)
  }

  /** The loop embeds every sampled index it reads. */
  lemma {:induction false} ScanComplete(cap: Capture, selected: seq<int>, embed: Frame -> Vec, idx: nat)
    requires idx <= Readable(cap.stream)
    ensures forall i :: idx <= i < ReadLimit(cap) && i in selected ==>
      i in ScanFrom(cap, selected, embed, idx).indices
    decreases cap.frameCount - idx
  {
    if idx < cap.frameCount && ReadAt(cap, idx).Some? {
      ScanComplete(cap, selected, embed, idx + 1);
    }
  }

  /** Strictly increasing. */
  predicate Increasing(s: seq<int>)
  {
    forall a, b :: 0 <= a < b < |s| ==> s[a] < s[b]
  }

  /** Putting a smaller item in front of an increasing list keeps it
      increasing. */
  lemma IncreasingCons(x: int, s: seq<int>)
    requires Increasing(s)
    requires forall k :: 0 <= k < |s| ==> x < s[k]
    ensures Increasing([x] + s)
  {
    var r := [x] + s;
    forall a, b | 0 <= a < b < |r|
      ensures r[a] < r[b]
    {
      assert r[b] == s[b - 1];
      if a > 0 {
        assert r[a] == s[a - 1];
      }
    }
  }

  /** The first two items of an increasing list are in order. */
  lemma IncreasingPair(s: seq<int>)
    requires Increasing(s)
    ensures |s| >= 2 ==> s[0] < s[1]
  {
  }

  /** The loop embeds frames in stream order, each at most once. */
  lemma {:induction false} ScanOrdered(cap: Capture, selected: seq<int>, embed: Frame -> Vec, idx: nat)
    requires idx <= Readable(cap.stream)
    ensures Increasing(ScanFrom(cap, selected, embed, idx).indices)
    decreases cap.frameCount - idx
  {
    if idx < cap.frameCount && ReadAt(cap, idx).Some? {
      ScanOrdered(cap, selected, embed, idx + 1);
      var rest := ScanFrom(cap, selected, embed, idx + 1).indices;
      if idx in selected {
        IncreasingCons(idx, rest);
      }
    }
  }

  /** The whole read loop over an opened video. */
  function Scan(cap: Capture, selected: seq<int>, embed: Frame -> Vec): ScanResult
  {
    ScanFrom(cap, selected, embed, 0)
  }

  /** `extract(video, frame_step, num_frames)`: the mean embedding of the
      sampled frames that were read, or nothing when there is none. The
      result is absent exactly when no sampled index lies below the read
      limit; otherwise it has the embedding length and is the mean of the
      embeddings of the frames the loop embedded. */
  function Extract(cap: Capture, frameStep: int, numFrames: int, embed: Frame -> Vec, dim: nat): (r: Option<Vec>)
    requires frameStep != 0
    requires EmbedsTo(embed, dim)
    ensures var selected := SelectIndices(cap.frameCount, frameStep, numFrames);
      r.None? <==> forall i :: 0 <= i < ReadLimit(cap) ==> i !in selected
    ensures r.Some? ==> |r.value| == dim
    ensures r.Some? ==>
      var s := Scan(cap, SelectIndices(cap.frameCount, frameStep, numFrames), embed);
      |s.vectors| > 0 && r.value == Mean(s.vectors, dim)
  {
    var selected := SelectIndices(cap.frameCount, frameStep, numFrames);
    var s := Scan(cap, selected, embed);
    if |s.vectors| == 0 then
      ScanComplete(cap, selected, embed, 0);
      None
    else
      assert s.indices[0] in selected;
      Some(Mean(s.vectors, dim))
  }

  /** A video that reports no frame, or whose first read fails, yields no
      features: the extractor never invents a default vector. */
  lemma ExtractNothingRead(cap: Capture, frameStep: int, numFrames: int, embed: Frame -> Vec, dim: nat)
    requires frameStep != 0 && EmbedsTo(embed, dim)
    requires cap.frameCount <= 0 || ReadAt(cap, 0).None?
    ensures Extract(cap, frameStep, numFrames, embed, dim) == None
  {
    assert ReadLimit(cap) <= 0;
  }

  /** A readable video no longer than one step contributes exactly its
      first frame, so its signature is that frame's embedding. */
  lemma ExtractShortVideo(cap: Capture, frameStep: int, numFrames: int, embed: Frame -> Vec, dim: nat)
    requires frameStep > 0 && numFrames > 0 && EmbedsTo(embed, dim)
    requires 0 < cap.frameCount <= frameStep
    requires ReadAt(cap, 0).Some?
    ensures Extract(cap, frameStep, numFrames, embed, dim) == Some(embed(ReadAt(cap, 0).value))
  {
    var selected := SelectIndices(cap.frameCount, frameStep, numFrames);
    SelectIndicesSpec(cap.frameCount, frameStep, numFrames);
    assert |selected| == 1;
    assert selected == [0];
    var s := Scan(cap, selected, embed);
    assert Readable(cap.stream) >= 1;
    ScanComplete(cap, selected, embed, 0);
    ScanOrdered(cap, selected, embed, 0);
    assert 0 in s.indices;
    assert forall k :: 0 <= k < |s.indices| ==> s.indices[k] in selected;
    IncreasingPair(s.indices);
    assert s.indices == [0];
    var v := embed(ReadAt(cap, 0).value);
    MeanOfCopies(s.vectors, v);
  }
}

=== FILE: options.dfy ===
/** Optional values: Python's `None` versus a present value. */
module Options {

  datatype Option<+T> = None | Some(value: T) {

    /** The present value, or `default` when there is none. */
    function GetOr(default: T): T
    {
      match this
      case Some(v) => v
      case None => default
    }
  }
}

=== FILE: ordered_dict.dfy ===
/**
 * A Python `dict` as the detector uses it: a key/value association that
 * remembers insertion order. Assigning to a present key updates its value
 * in place, assigning to a new key appends it, deleting a key closes the gap.
 */
module OrderedDict {
  import opened Options

  /** No key occurs twice. */
  predicate DistinctKeys<K(==), V>(s: seq<(K, V)>)
  {
    forall i, j :: 0 <= i < j < |s| ==> s[i].0 != s[j].0
  }

  type Dict<K(==), V> = s: seq<(K, V)> | DistinctKeys(s) witness []

  /** The keys of `d`. */
  function Keys<K(==), V>(d: Dict<K, V>): set<K>
  {
    set i | 0 <= i < |d| :: d[i].0
  }

  /** Position of `k` in `d`, or `|d|` when `k` is absent. */
  function Pos<K(==), V>(d: Dict<K, V>, k: K): (i: nat)
    ensures i <= |d|
    ensures i < |d| ==> d[i].0 == k
    ensures i == |d| <==> k !in Keys(d)
    ensures forall j :: 0 <= j < |d| && d[j].0 == k ==> j == i
  {
    if exists j :: 0 <= j < |d| && d[j].0 == k then
      var j :| 0 <= j < |d| && d[j].0 == k;
      j
    else
      |d|
  }

  /** `d.get(k)`. */
  function Get<K(==), V>(d: Dict<K, V>, k: K): (r: Option<V>)
    ensures r.Some? <==> k in Keys(d)
    ensures r.Some? ==> (k, r.value) in d
  {
    var i := Pos(d, k);
    if i < |d| then Some(d[i].1) else None
  }

  /** `d[k] = v`. */
  function Put<K(==, !new), V>(d: Dict<K, V>, k: K, v: V): (r: Dict<K, V>)
    ensures Get(r, k) == Some(v)
    ensures forall k' :: k' != k ==> Get(r, k') == Get(d, k')
    ensures Keys(r) == Keys(d) + {k}
    ensures k in Keys(d) ==> |r| == |d| && forall j :: 0 <= j < |d| ==> r[j].0 == d[j].0
    ensures k !in Keys(d) ==> r == d + [(k, v)]
  {
    var i := Pos(d, k);
    if i < |d| then
      var r := d[i := (k, v)];
      assert forall j :: 0 <= j < |r| ==> r[j].0 == d[j].0;
      SameKeys(d, r);
      GetAfterUpdate(d, r, k);
      r
    else
      var r := d + [(k, v)];
      assert DistinctKeys(r);
      GetAfterAppend(d, r, k, v);
      r
  }

  /** Two dictionaries with the same keys at the same positions have the
      same key set. */
  lemma SameKeys<K, V>(d: Dict<K, V>, r: Dict<K, V>)
    requires |r| == |d|
    requires forall j :: 0 <= j < |d| ==> r[j].0 == d[j].0
    ensures Keys(r) == Keys(d)
  {
    forall x | x in Keys(d)
      ensures x in Keys(r)
    {
      var j :| 0 <= j < |d| && d[j].0 == x;
      assert r[j].0 == x;
    }
  }

  /** Replacing the entry for `k` in place leaves the other keys' values. */
  lemma GetAfterUpdate<K, V>(d: Dict<K, V>, r: Dict<K, V>, k: K)
    requires |r| == |d|
    requires forall j :: 0 <= j < |d| ==> r[j].0 == d[j].0
    requires forall j :: 0 <= j < |d| && d[j].0 != k ==> r[j] == d[j]
    ensures forall k' :: k' != k ==> Get(r, k') == Get(d, k')
  {
    SameKeys(d, r);
    forall k' | k' != k
      ensures Get(r, k') == Get(d, k')
    {
      var i := Pos(d, k');
      if i < |d| {
        assert r[i].0 == k';
      }
    }
  }

  /** Appending a new key leaves the other keys' values. */
  lemma GetAfterAppend<K, V>(d: Dict<K, V>, r: Dict<K, V>, k: K, v: V)
    requires k !in Keys(d)
    requires r == d + [(k, v)]
    ensures Keys(r) == Keys(d) + {k}
    ensures Get(r, k) == Some(v)
    ensures forall k' :: k' != k ==> Get(r, k') == Get(d, k')
  {
    assert forall j :: 0 <= j < |d| ==> r[j] == d[j];
    assert r[|d|].0 == k;
    assert Keys(r) == Keys(d) + {k} by {
      forall x | x in Keys(r)
        ensures x in Keys(d) + {k}
      {
        var j :| 0 <= j < |r| && r[j].0 == x;
        if j < |d| {
          assert d[j].0 == x;
        }
      }
    }
    forall k' | k' != k
      ensures Get(r, k') == Get(d, k')
    {
      var i := Pos(d, k');
      if i < |d| {
        assert r[i].0 == k';
      }
    }
  }

  /** `del d[k]` when `k` is present, nothing otherwise; the remaining
      entries keep their order. */
  function Remove<K(==, !new), V>(d: Dict<K, V>, k: K): (r: Dict<K, V>)
    ensures Get(r, k) == None
    ensures forall k' :: k' != k ==> Get(r, k') == Get(d, k')
    ensures Keys(r) == Keys(d) - {k}
    ensures k in Keys(d) ==> r == d[..Pos(d, k)] + d[Pos(d, k) + 1..]
    ensures k !in Keys(d) ==> r == d
  {
    var i := Pos(d, k);
    if i < |d| then
      var r := d[..i] + d[i + 1..];
      assert forall j :: 0 <= j < i ==> r[j] == d[j];
      assert forall j :: i <= j < |r| ==> r[j] == d[j + 1];
      assert DistinctKeys(r);
      var r: Dict<K, V> := r;
      assert Keys(r) == Keys(d) - {k} by {
        forall x | x in Keys(d) - {k}
          ensures x in Keys(r)
        {
          var j :| 0 <= j < |d| && d[j].0 == x;
          if j < i {
            assert r[j].0 == x;
          } else {
            assert r[j - 1].0 == x;
          }
        }
      }
      assert forall k' :: k' != k && k' in Keys(r) ==> Get(r, k') == Get(d, k') by {
        forall k' | k' != k && k' in Keys(r)
          ensures Get(r, k') == Get(d, k')
        {
          var p := Pos(r, k');
          if p < i {
            assert Pos(d, k') == p;
          } else {
            assert Pos(d, k') == p + 1;
          }
        }
      }
      r
    else
      d
  }
}

=== FILE: text.dfy ===
/**
 * The string operations the detector relies on, with Python's semantics:
 * `str.strip()`, `",".join`, `str.split(",")`, `os.path.splitext` and
 * `os.path.join` (POSIX flavour).
 */
module Text {

  /** Python's `str.isspace` for one character: exactly the characters that
      `str.strip()` with no argument removes from either end. */
  predicate IsSpace(c: char)
  {
    || c == ' '
    || ('\t' <= c <= '\r')
    || ('\U{1C}' <= c <= '\U{1F}')
    || c == '\U{85}' || c == '\U{A0}' || c == '\U{1680}'
    || ('\U{2000}' <= c <= '\U{200A}')
    || c == '\U{2028}' || c == '\U{2029}' || c == '\U{202F}'
    || c == '\U{205F}' || c == '\U{3000}'
  }

  /** A string with no whitespace at either end. */
  predicate IsStripped(s: string)
  {
    s == [] || (!IsSpace(s[0]) && !IsSpace(s[|s| - 1]))
  }

  /** Number of whitespace characters at the front of `s`. */
  function LeadingSpace(s: string): (n: nat)
    ensures n <= |s|
    ensures forall k :: 0 <= k < n ==> IsSpace(s[k])
    ensures n < |s| ==> !IsSpace(s[n])
  {
    if |s| > 0 && IsSpace(s[0]) then 1 + LeadingSpace(s[1..]) else 0
  }

  /** Number of whitespace characters at the back of `s`. */
  function TrailingSpace(s: string): (n: nat)
    ensures n <= |s|
    ensures forall k :: |s| - n <= k < |s| ==> IsSpace(s[k])
    ensures n < |s| ==> !IsSpace(s[|s| - n - 1])
  {
    if |s| > 0 && IsSpace(s[|s| - 1]) then 1 + TrailingSpace(s[..|s| - 1]) else 0
  }

  /** Python's `s.strip()`: `s` with its leading and trailing whitespace
      removed. The result is a contiguous piece of `s` that starts where the
      leading whitespace ends, has no whitespace at either end, and everything
      of `s` outside it is whitespace. */
  function Strip(s: string): (r: string)
    ensures IsStripped(r)
    ensures LeadingSpace(s) + |r| <= |s|
    ensures r == s[LeadingSpace(s)..LeadingSpace(s) + |r|]
    ensures forall k :: LeadingSpace(s) + |r| <= k < |s| ==> IsSpace(s[k])
  {
    var lead := LeadingSpace(s);
    if lead == |s| then [] else s[lead..|s| - TrailingSpace(s)]
  }

  /** `strip` leaves a string unchanged exactly when it has no whitespace at
      either end; in particular it is idempotent. */
  lemma StripFixedPoint(s: string)
    ensures Strip(s) == s <==> IsStripped(s)
    ensures Strip(Strip(s)) == Strip(s)
  {
    if IsStripped(s) && s != [] {
      assert LeadingSpace(s) == 0;
      assert TrailingSpace(s) == 0;
    }
    var r := Strip(s);
    if r != [] {
      assert LeadingSpace(r) == 0;
      assert TrailingSpace(r) == 0;
    }
  }

  /** Python's `sep.join(parts)` for a one-character separator. */
  function Join(parts: seq<string>, sep: char): string
  {
    if |parts| == 0 then ""
    else if |parts| == 1 then parts[0]
    else parts[0] + [sep] + Join(parts[1..], sep)
  }

  /** Position of the first `c` in `s`, or `|s|` when there is none. */
  function Find(s: string, c: char): (i: nat)
    ensures i <= |s|
    ensures forall k :: 0 <= k < i ==> s[k] != c
    ensures i < |s| ==> s[i] == c
  {
    if |s| == 0 || s[0] == c then 0 else 1 + Find(s[1..], c)
  }

  /** Python's `s.split(sep)` for a one-character separator: the pieces
      between separators, never an empty list (`"".split(",") == [""]`). */
  function Split(s: string, sep: char): (r: seq<string>)
    ensures |r| >= 1
    ensures forall k :: 0 <= k < |r| ==> sep !in r[k]
    decreases |s|
  {
    var i := Find(s, sep);
    if i == |s| then
      assert sep !in s;
      [s]
    else
      assert sep !in s[..i];
      [s[..i]] + Split(s[i + 1..], sep)
  }

  /** Splitting a join of separator-free pieces gives the pieces back. */
  lemma {:induction false} SplitJoin(parts: seq<string>, sep: char)
    requires |parts| >= 1
    requires forall k :: 0 <= k < |parts| ==> sep !in parts[k]
    ensures Split(Join(parts, sep), sep) == parts
    decreases |parts|
  {
    var s := Join(parts, sep);
    var p := parts[0];
    if |parts| == 1 {
      assert sep !in s;
      assert Find(s, sep) == |s|;
    } else {
      var rest := Join(parts[1..], sep);
      assert s == p + [sep] + rest;
      assert Find(s, sep) == |p| by {
        assert forall k :: 0 <= k < |p| ==> s[k] == p[k];
        assert s[|p|] == sep;
      }
      assert s[..|p|] == p;
      assert s[|p| + 1..] == rest;
      SplitJoin(parts[1..], sep);
      assert [p] + parts[1..] == parts;
    }
  }

  /** Joining the pieces of a split gives the string back. */
  lemma {:induction false} JoinSplit(s: string, sep: char)
    ensures Join(Split(s, sep), sep) == s
    decreases |s|
  {
    var i := Find(s, sep);
    if i == |s| {
      assert Split(s, sep) == [s];
    } else {
      var tail := s[i + 1..];
      var rest := Split(tail, sep);
      assert Split(s, sep) == [s[..i]] + rest;
      JoinSplit(tail, sep);
      JoinCons(s[..i], rest, sep);
      assert s == s[..i] + [sep] + tail;
    }
  }

  /** Joining one more piece in front adds it and a separator. */
  lemma JoinCons(p: string, rest: seq<string>, sep: char)
    requires |rest| >= 1
    ensures Join([p] + rest, sep) == p + [sep] + Join(rest, sep)
  {
    assert ([p] + rest)[1..] == rest;
  }

  /** A join of no pieces does not split back to no pieces: the one case the
      round trip excludes. */
  lemma SplitOfEmptyJoin(sep: char)
    ensures Split(Join([], sep), sep) == [""]
  {
    assert Find("", sep) == 0;
  }

  /** Position of the last `c` in `s`, or -1 when there is none
      (Python's `str.rfind`). */
  function RFind(s: string, c: char): (i: int)
    ensures -1 <= i < |s|
    ensures i >= 0 ==> s[i] == c
    ensures forall k :: i < k < |s| ==> s[k] != c
  {
    if |s| == 0 then -1
    else if s[|s| - 1] == c then |s| - 1
    else RFind(s[..|s| - 1], c)
  }

  /** Some character of `p[lo..hi]` is not a dot. */
  predicate HasNonDot(p: string, lo: int, hi: int)
    requires 0 <= lo <= hi <= |p|
  {
    exists k :: lo <= k < hi && p[k] != '.'
  }

  /** `os.path.splitext(p)` on POSIX: split off the extension, which starts
      at the last dot of the last path component, unless everything in that
      component before the dot is dots (so `.bashrc` has no extension). */
  function SplitExt(p: string): (r: (string, string))
    ensures r.0 + r.1 == p
    ensures r.1 == [] || (r.1[0] == '.' && '.' !in r.1[1..] && '/' !in r.1)
    ensures r.1 != [] ==> HasNonDot(r.0, RFind(r.0, '/') + 1, |r.0|)
    ensures r.1 == [] ==>
      forall k :: RFind(p, '/') < k < |p| && p[k] == '.' ==> !HasNonDot(p, RFind(p, '/') + 1, k)
  {
    var sepIndex := RFind(p, '/');
    var dotIndex := RFind(p, '.');
    if dotIndex > sepIndex && HasNonDot(p, sepIndex + 1, dotIndex) then
      var root := p[..dotIndex];
      assert RFind(root, '/') == sepIndex by {
        RFindPrefix(p, dotIndex, '/');
      }
      (root, p[dotIndex..])
    else
      (p, "")
  }

  /** `rfind` on a prefix agrees with `rfind` on the whole string when the
      last occurrence lies inside the prefix. */
  lemma {:induction false} RFindPrefix(s: string, n: nat, c: char)
    requires n <= |s|
    requires RFind(s, c) < n
    ensures RFind(s[..n], c) == RFind(s, c)
    decreases |s|
  {
    if n < |s| {
      assert s[|s| - 1] != c;
      assert s[..|s| - 1][..n] == s[..n];
      RFindPrefix(s[..|s| - 1], n, c);
    } else {
      assert s[..n] == s;
    }
  }

  /** The file name without its extension: `os.path.splitext(name)[0]`. */
  function Stem(name: string): (r: string)
    ensures r <= name
  {
    SplitExt(name).0
  }

  /** `rfind` is pinned down by its contract: the last `c` is the `c` with
      none after it. */
  lemma RFindIs(s: string, c: char, i: int)
    requires -1 <= i < |s|
    requires i >= 0 ==> s[i] == c
    requires forall k :: i < k < |s| ==> s[k] != c
    ensures RFind(s, c) == i
  {
  }

  /** A name ending in a dot and a dot-free, slash-free extension, whose last
      component has something other than dots before that dot, splits
      exactly there: the stem of `clip.mp4` is `clip`. */
  lemma StemOfExtension(base: string, ext: string)
    requires '.' !in ext && '/' !in ext
    requires HasNonDot(base, RFind(base, '/') + 1, |base|)
    ensures SplitExt(base + "." + ext).0 == base
    ensures SplitExt(base + "." + ext).1 == "." + ext
    ensures Stem(base + "." + ext) == base
  {
    var p := base + "." + ext;
    var n := |base|;
    LastDotOfExtension(base, ext);
    NonDotInPrefix(base, p, RFind(base, '/') + 1);
    SplitExtAt(p, n);
    ExtensionSuffix(base, ext);
  }

  /** When the last dot follows the last slash and something other than dots
      stands between them, `splitext` cuts at that dot. */
  lemma SplitExtAt(p: string, n: int)
    requires 0 <= n < |p| && RFind(p, '.') == n && RFind(p, '/') < n
    requires HasNonDot(p, RFind(p, '/') + 1, n)
    ensures SplitExt(p) == (p[..n], p[n..])
  {
  }

  /** `base + "." + ext` splits at `|base|` into `base` and `"." + ext`. */
  lemma ExtensionSuffix(base: string, ext: string)
    ensures (base + "." + ext)[..|base|] == base
    ensures (base + "." + ext)[|base|..] == "." + ext
  {
  }

  /** A non-dot in a range of `base` is still there in any extension of `base`. */
  lemma NonDotInPrefix(base: string, p: string, lo: int)
    requires base <= p && 0 <= lo <= |base|
    requires HasNonDot(base, lo, |base|)
    ensures HasNonDot(p, lo, |base|)
  {
    var k :| lo <= k < |base| && base[k] != '.';
    assert p[k] == base[k];
  }

  /** In `base + "." + ext` the last dot is the one before `ext`, and the last
      slash is the last slash of `base`. */
  lemma LastDotOfExtension(base: string, ext: string)
    requires '.' !in ext && '/' !in ext
    ensures RFind(base + "." + ext, '.') == |base|
    ensures RFind(base + "." + ext, '/') == RFind(base, '/')
  {
    var p := base + "." + ext;
    var n := |base|;
    NoDotAfter(base, ext);
    RFindIs(p, '.', n);
    var i := RFind(base, '/');
    assert forall k :: n <= k < |p| ==> p[k] != '/';
    assert i >= 0 ==> p[i] == '/';
    assert forall k :: i < k < n ==> p[k] == base[k];
    RFindIs(p, '/', i);
  }

  /** The dot before a dot-free extension is the last dot. */
  lemma NoDotAfter(base: string, ext: string)
    requires '.' !in ext
    ensures var p := base + "." + ext;
      |base| < |p| && p[|base|] == '.' && forall k :: |base| < k < |p| ==> p[k] != '.'
  {
    var p := base + "." + ext;
    forall k | |base| < k < |p| ensures p[k] != '.' {
      assert p[k] == ext[k - |base| - 1];
    }
  }

  /** `os.path.join(a, b)` on POSIX for two components: an absolute `b`
      discards `a`; otherwise a `/` is inserted unless `a` is empty or already
      ends in one. */
  function PathJoin(a: string, b: string): (r: string)
    ensures |b| > 0 && b[0] == '/' ==> r == b
    ensures (|b| == 0 || b[0] != '/') ==> r == DirPrefix(a) + b
  {
    if |b| > 0 && b[0] == '/' then b
    else if a == "" || a[|a| - 1] == '/' then a + b
    else a + "/" + b
  }

  /** What `os.path.join(a, b)` puts in front of a relative `b`. */
  function DirPrefix(a: string): string
  {
    if a == "" || a[|a| - 1] == '/' then a else a + "/"
  }

  /** Joining a fixed directory with relative names is injective. */
  lemma PathJoinInjective(a: string, b1: string, b2: string)
    requires |b1| == 0 || b1[0] != '/'
    requires |b2| == 0 || b2[0] != '/'
    requires PathJoin(a, b1) == PathJoin(a, b2)
    ensures b1 == b2
  {
    var d := DirPrefix(a);
    assert b1 == (d + b1)[|d|..];
    assert b2 == (d + b2)[|d|..];
  }

  /** Appending a common suffix is injective. */
  lemma AppendCancel(x: string, y: string, suffix: string)
    requires x + suffix == y + suffix
    ensures x == y
  {
    assert x == (x + suffix)[..|x|];
    assert |x| == |y|;
    assert y == (y + suffix)[..|y|];
  }
}

=== FILE: vectors.dfy ===
/**
 * Real vectors and the arithmetic the detector performs on them: the
 * elementwise mean that turns per-frame embeddings into one signature, the
 * squared Euclidean distance of an exact L2 index, and the exhaustive
 * nearest-neighbour search over a list of stored vectors.
 */
module Vectors {

  type Vec = seq<real>

  /** Every vector of `vs` has length `d`. */
  predicate AllDim(vs: seq<Vec>, d: nat)
  {
    forall i :: 0 <= i < |vs| ==> |vs[i]| == d
  }

  /** The square of a real, never negative. */
  function Square(x: real): (r: real)
    ensures r >= 0.0
  {
    x * x
  }

  /** Squared Euclidean distance, the quantity an exact L2 index reports. */
  function SqDist(a: Vec, b: Vec): (r: real)
    requires |a| == |b|
    ensures r >= 0.0
  {
    if |a| == 0 then 0.0
    else SqDist(a[..|a| - 1], b[..|b| - 1]) + Square(a[|a| - 1] - b[|b| - 1])
  }

  /** A vector is at squared distance zero from itself. */
  lemma {:induction false} SqDistSelf(a: Vec)
    ensures SqDist(a, a) == 0.0
  {
    if |a| > 0 {
      SqDistSelf(a[..|a| - 1]);
    }
  }

  /** Sum of component `j` over the first `n` vectors of `vs`. */
  function ColumnSum(vs: seq<Vec>, n: nat, j: nat): real
    requires n <= |vs|
    requires forall i :: 0 <= i < |vs| ==> j < |vs[i]|
  {
    if n == 0 then 0.0 else ColumnSum(vs, n - 1, j) + vs[n - 1][j]
  }

  /** The elementwise arithmetic mean of a non-empty list of vectors of
      length `d`: component `j` times the number of vectors is the sum of
      component `j` over all of them. */
  function Mean(vs: seq<Vec>, d: nat): (r: Vec)
    requires |vs| > 0 && AllDim(vs, d)
    ensures |r| == d
    ensures forall j :: 0 <= j < d ==> r[j] * (|vs| as real) == ColumnSum(vs, |vs|, j)
  {
    seq(d, j requires 0 <= j < d => ColumnSum(vs, |vs|, j) / (|vs| as real))
  }

  /** The column sum of copies of one vector is a multiple of it. */
  lemma {:induction false} ColumnSumOfCopies(vs: seq<Vec>, n: nat, j: nat, v: Vec)
    requires n <= |vs| && j < |v|
    requires forall i :: 0 <= i < |vs| ==> vs[i] == v
    ensures ColumnSum(vs, n, j) == (n as real) * v[j]
  {
    if n > 0 {
      ColumnSumOfCopies(vs, n - 1, j, v);
    }
  }

  /** The mean of copies of one vector is that vector; in particular the
      mean of a single vector is the vector itself. */
  lemma MeanOfCopies(vs: seq<Vec>, v: Vec)
    requires |vs| > 0
    requires forall i :: 0 <= i < |vs| ==> vs[i] == v
    ensures Mean(vs, |v|) == v
  {
    var r := Mean(vs, |v|);
    forall j | 0 <= j < |v|
      ensures r[j] == v[j]
    {
      ColumnSumOfCopies(vs, |vs|, j, v);
      assert r[j] * (|vs| as real) == (|vs| as real) * v[j];
    }
  }

  /** The smallest squared distance from `q` to a vector of `db`: it is
      attained by some stored vector and no stored vector is closer. */
  function MinSqDist(db: seq<Vec>, q: Vec): (r: real)
    requires |db| > 0 && AllDim(db, |q|)
    ensures forall i :: 0 <= i < |db| ==> r <= SqDist(q, db[i])
    ensures exists i :: 0 <= i < |db| && r == SqDist(q, db[i])
  {
    var last := SqDist(q, db[|db| - 1]);
    if |db| == 1 then last
    else
      var rest := MinSqDist(db[..|db| - 1], q);
      assert forall i :: 0 <= i < |db| - 1 ==> db[..|db| - 1][i] == db[i];
      if rest <= last then rest else last
  }

  /** Position `p` of `db` holds a vector at minimal squared distance from
      `q`. Nothing is said about which position wins a tie. */
  predicate IsNearest(db: seq<Vec>, q: Vec, p: int)
    requires AllDim(db, |q|)
  {
    && 0 <= p < |db|
    && forall i :: 0 <= i < |db| ==> SqDist(q, db[p]) <= SqDist(q, db[i])
  }

  /** Every nearest position reports the same distance, the minimum. */
  lemma NearestDistance(db: seq<Vec>, q: Vec, p: int)
    requires AllDim(db, |q|) && IsNearest(db, q, p)
    ensures SqDist(q, db[p]) == MinSqDist(db, q)
  {
    var i :| 0 <= i < |db| && MinSqDist(db, q) == SqDist(q, db[i]);
  }

  /** A k=1 exact L2 search: for every non-empty list of vectors of the
      query's length it returns a nearest position. */
  ghost predicate ExactSearch(nearest: (seq<Vec>, Vec) -> nat)
  {
    forall db, q :: |db| > 0 && AllDim(db, |q|) ==> IsNearest(db, q, nearest(db, q))
  }

  /** The first position of minimal squared distance, as a function a
      search can be instantiated with; 0 when there is nothing to compare. */
  function ArgMin(db: seq<Vec>, q: Vec): (p: nat)
    ensures |db| > 0 ==> p < |db|
  {
    if |db| <= 1 || !AllDim(db, |q|) then 0
    else
      var p := ArgMin(db[..|db| - 1], q);
      if SqDist(q, db[p]) <= SqDist(q, db[|db| - 1]) then p else |db| - 1
  }

  /** `ArgMin` finds a nearest position, and no earlier position is as
      near. */
  lemma {:induction false} ArgMinNearest(db: seq<Vec>, q: Vec)
    requires |db| > 0 && AllDim(db, |q|)
    ensures IsNearest(db, q, ArgMin(db, q))
    ensures forall i :: 0 <= i < ArgMin(db, q) ==> SqDist(q, db[i]) > SqDist(q, db[ArgMin(db, q)])
    decreases |db|
  {
    if |db| > 1 {
      var init := db[..|db| - 1];
      assert forall i :: 0 <= i < |db| - 1 ==> init[i] == db[i];
      ArgMinNearest(init, q);
    }
  }

  /** A first-minimum scan is a valid k=1 exact search, so the searches the
      model quantifies over exist. */
  lemma ArgMinIsExact()
    ensures ExactSearch(ArgMin)
  {
    forall db: seq<Vec>, q: Vec | |db| > 0 && AllDim(db, |q|)
      ensures IsNearest(db, q, ArgMin(db, q))
    {
      ArgMinNearest(db, q);
    }
  }

  /** The exhaustive linear scan an exact flat L2 index performs for k=1:
      a nearest position and its distance, the minimum. It keeps the first
      of equally near positions, so it agrees with `ArgMin`. */
  method ExhaustiveSearch(db: seq<Vec>, q: Vec) returns (pos: nat, dist: real)
    requires |db| > 0 && AllDim(db, |q|)
    ensures IsNearest(db, q, pos)
    ensures dist == SqDist(q, db[pos]) == MinSqDist(db, q)
    ensures pos == ArgMin(db, q)
  {
    pos, dist := 0, SqDist(q, db[0]);
    var i := 1;
    while i < |db|
      invariant 1 <= i <= |db| && pos < i
      invariant dist == SqDist(q, db[pos])
      invariant forall k :: 0 <= k < i ==> dist <= SqDist(q, db[k])
      invariant pos == ArgMin(db[..i], q)
    {
      assert db[..i + 1][..i] == db[..i];
      var d := SqDist(q, db[i]);
      if d < dist {
        pos, dist := i, d;
      }
      i := i + 1;
    }
    assert db[..i] == db;
    NearestDistance(db, q, pos);
  }
}
